=== FILE: README.md ===
# Raft replica of the newsletter backend, in Dafny

This project models the replication core of the `startup-news-backend` server. Each server is one replica of a small Raft cluster. It keeps a Raft log of blog commands, votes in elections, and accepts or rejects AppendEntries from the leader. As leader it appends client commands to its log and commits them at once: `replicate_command` sets the commit index to the log length. The majority rule for advancing the commit index applies only when the leader handles AppendEntries replies. Committed commands are applied to a blog state machine of subscribers, writer accounts and posts. Clients find the leader by asking each configured replica in turn who leads.

The model is functional. A replica is one immutable `Node` record holding:

- the Raft fields `currentTerm`, `votedFor`, `log`, `commitIndex`, `lastApplied`, `role`, `nextIndex` and `matchIndex`;
- the cluster configuration;
- the blog database.

Every handler is a pure function from a node and a message to a new node and a reply. RPC replies from other replicas are inputs: a sequence of vote replies, heartbeat reply terms, or per-replica leader probes. Python exceptions that a handler can raise are explicit outcomes: a `raised` flag, or a missing reply. These are a `KeyError` on a missing post or map key, a `ValueError` when unpacking too many parameters or building a writer with an empty password, an `IndexError` past the end of the log or on an ADD_REPLICA or REMOVE_REPLICA entry without a parameter, and a failed decode of an ADD_REPLICA configuration (invalid JSON, or a `KeyError` on a missing `id`).

Modules:

- `Wrappers`: Option.
- `RaftLog`: log entries and their dictionary form, plus the follower's log merge.
- `Posts`: posts and the like list.
- `Blog`: the blog state machine.
- `ReplicaState`: the replica record and applying committed entries.
- `RaftRpc`: RequestVote and AppendEntries.
- `Leadership`: the tally, become_leader, the step-down test, reply handling, commit and replication.
- `BlogRpc`: the like and unlike RPCs.
- `Discovery`: the client's leader scan.
- `Safety`: lemmas that hold across all handlers.

The code's leader discovery is a plain linear scan: the first replica that answers SUCCESS with a configured id wins. The model follows the code.

## Model

| member | source | states |
|---|---|---|
| RaftLog.ToDict | startup-news-backend/consensus.py:48-53 | the dictionary has exactly the keys term, operation and params, each holding the matching field |
| RaftLog.FromDict | startup-news-backend/consensus.py:55-57 | an entry is rebuilt exactly when all three keys are present with usable values, and it carries those values |
| RaftLog.FromDictToDict | startup-news-backend/consensus.py:48-57 | decoding an encoded entry reproduces its term, operation and params |
| RaftLog.ToDictFromDict | startup-news-backend/consensus.py:48-57 | encoding a decoded dictionary reproduces the dictionary's three entry keys unchanged |
| RaftLog.LastLogIndex | startup-news-backend/consensus.py:144-145 | the last log index is the log length |
| RaftLog.LastLogTerm | startup-news-backend/consensus.py:147-150 | the last log term is 0 for an empty log, else the term of the last entry |
| RaftLog.LastLogAfterAppend | startup-news-backend/consensus.py:144-150 | appending one entry raises the last index by one and makes that entry's term the last term |
| RaftLog.MergeEntries | startup-news-backend/consensus.py:180-194 | the merge keeps the prefix before prevLogIndex, covers every new entry, and leaves each position holding the new entry's term |
| RaftLog.NoConflictAgrees | startup-news-backend/consensus.py:180-190 | the loop's term check finds no conflict exactly when every existing position the new entries overlap already holds the new entry's term |
| RaftLog.MergeWithoutConflict | startup-news-backend/consensus.py:186-194 | with no term conflict nothing is deleted; only entries past the end of the log are appended |
| RaftLog.MergeWithConflict | startup-news-backend/consensus.py:186-194 | at the first conflicting position the log is cut and the remaining new entries follow |
| RaftLog.AppendEntriesToLogAsWritten | startup-news-backend/consensus.py:152-197 | as written: prevLogIndex 0 always succeeds, no entries leaves the log unchanged, and for prevLogIndex > 0 it agrees with the corrected merge |
| RaftLog.AsWrittenBreaksLogMatching | startup-news-backend/consensus.py:157-170 | with prevLogIndex 0 the code appends after the whole log, so a new entry lands at the wrong position with the wrong term |
| RaftLog.AppendEntriesToLog | startup-news-backend/consensus.py:172-194 | fails, with the log unchanged, exactly when prevLogIndex is past the log or its term mismatches; on success the prefix is kept, the log reaches prevLogIndex+len(entries), and every new entry's term sits at its position |
| Posts.NewPost | startup-news-backend/post.py:5-12 | a new post has no comments, an empty like list unless one is given, and the current time unless a timestamp is given |
| Posts.NewPostFirstLike | startup-news-backend/post.py:5-12 | the first like of a new post created without a like list reports a change and leaves exactly that user |
| Posts.FirstIndex | startup-news-backend/post.py:71 | the position found is the first one holding the value, and the list length exactly when the value is absent |
| Posts.RemoveFirst | startup-news-backend/post.py:71 | list.remove deletes the first occurrence of a present value and keeps everything before and after it in order; an absent value leaves the list alone |
| Posts.RemoveFirstNoDuplicates | startup-news-backend/post.py:69-73 | on a duplicate-free list, removal keeps the list duplicate-free, drops the value entirely, and keeps every other value |
| Posts.Like | startup-news-backend/post.py:63-67 | like reports a change exactly when the user was absent; then the user is appended, otherwise the list is unchanged |
| Posts.Unlike | startup-news-backend/post.py:69-73 | unlike reports a change exactly when the user was present; then the first occurrence is removed as list.remove does, otherwise the list is unchanged |
| Posts.LikeKeepsSet | startup-news-backend/post.py:63-67 | like keeps the list duplicate-free and, read as a set, adds exactly the user |
| Posts.UnlikeKeepsSet | startup-news-backend/post.py:69-73 | unlike keeps the list duplicate-free and, read as a set, removes exactly the user |
| Posts.LikeThenUnlike | startup-news-backend/post.py:63-73 | a like by a user not in the list, followed by an unlike, restores the original list |
| Blog.ApplyBlogOp | startup-news-backend/server.py:499-596 | a blog command raises exactly in the source's exception cases; unknown commands change nothing; only CREATE_ACCOUNT touches writers; only SUBSCRIBE and the two delete commands touch subscribers; and each command's effect: SUBSCRIBE adds the address, CREATE_ACCOUNT stores the writer, COMMENT_POST appends the comment, CREATE_POST stores a post with no likes, LIKE/UNLIKE run Post.like/unlike, DELETE_POST drops the post from posts and from its author's list, DELETE_ACCOUNT is RemoveAccount; each command's full result is its branch function's, so every other post and field is kept |
| Blog.ApplySubscribe | startup-news-backend/server.py:503-508 | a new address becomes a subscriber with empty lists; an existing one and every other subscriber are left alone; a wrong parameter count changes nothing |
| Blog.ApplyCreateAccount | startup-news-backend/server.py:510-519 | raises exactly for a new email with an empty password; a new email otherwise gets Writer(email, name, password); an existing email or a wrong parameter count changes nothing, and existing writers are kept |
| Blog.ApplyComment | startup-news-backend/server.py:521-531 | raises exactly when the post is missing; otherwise the comment, stamped with the clock, is appended to that post's comments and every other post is kept |
| Blog.ApplyCreatePost | startup-news-backend/server.py:533-546 | raises exactly on more than five parameters; fewer changes nothing; five store, under the post id, a post with those fields and no likes or comments, and keep every other post |
| Blog.ApplyLike | startup-news-backend/server.py:554-566 | raises exactly on more than two parameters; when both the post and the subscriber exist the like list goes through like/unlike and every other post is kept; otherwise nothing changes |
| Blog.ApplyDeletePost | startup-news-backend/server.py:569-576 | raises on extra parameters, or when the author of the named post is not a subscriber; the named post is deleted exactly when its author asks and is a subscriber, and then it also leaves the author's post list, with the author's other fields and every other subscriber kept; any other request changes nothing |
| Blog.RemoveAccount | startup-news-backend/server.py:578-596 | deleting a subscriber removes exactly that subscriber and exactly the posts it owns, and leaves writers alone; surviving posts are unchanged; each surviving subscriber keeps its email and posts and loses the first occurrence of the name from its followers and subscriptions; an unknown name changes nothing |
| Blog.RemoveAccountForgetsUser | startup-news-backend/server.py:582-588 | with duplicate-free lists, no remaining subscriber still lists the deleted one as follower or subscription |
| Blog.ApplyKeepsLikesDuplicateFree | startup-news-backend/server.py:554-566 | no blog command introduces a duplicate into any post's like list |
| Blog.SubscribeIdempotent | startup-news-backend/server.py:503-508 | SUBSCRIBE adds the address, and repeating it changes nothing |
| ReplicaState.Majority | startup-news-backend/server.py:211 | the majority threshold len//2+1 is more than half the cluster, and one less is at most half |
| ReplicaState.WithoutReplica | startup-news-backend/server.py:622 | the filtered configuration holds exactly the entries whose id differs |
| ReplicaState.WithoutReplicaCounts | startup-news-backend/server.py:622 | each entry whose id differs keeps its number of occurrences, and entries with the id have none |
| ReplicaState.WithoutReplicaConcat | startup-news-backend/server.py:622 | filtering a concatenation filters each part in turn, so the kept entries stay in their original order |
| ReplicaState.AddReplica | startup-news-backend/server.py:608-618 | the configuration is unchanged when the id is present and otherwise gains the replica at the end; its nextIndex restarts at len(log)+1 and its matchIndex at 0 |
| ReplicaState.RemoveReplica | startup-news-backend/server.py:620-635 | the configuration is the order-keeping filter without the id; the replica leaves both index maps; every other entry is kept |
| ReplicaState.ApplyEntry | startup-news-backend/server.py:499-603 | applying an entry never changes the Raft fields; a blog command raises exactly when the blog state machine does and otherwise replaces the database with its result; ADD_REPLICA raises exactly without a parameter or with an undecodable config, else adds that config; REMOVE_REPLICA raises exactly without a parameter, else removes that id; an unknown command changes nothing |
| ReplicaState.ApplyEntryIgnoresLastApplied | startup-news-backend/server.py:499-603 | applying an entry neither reads nor writes lastApplied |
| ReplicaState.ApplyCommitted | startup-news-backend/server.py:354-358 | on completion lastApplied reaches commitIndex; on an exception lastApplied is past the old value and at most commitIndex, counting the entry that raised; term, vote, log, commit and role are untouched |
| ReplicaState.ApplyCommittedInOrder | startup-news-backend/server.py:354-358 | on completion the effect is exactly one application of each entry in (lastApplied, commitIndex], in index order |
| ReplicaState.ApplyAllIgnoresLastApplied | startup-news-backend/server.py:354-358 | applying a run of entries neither reads nor writes lastApplied |
| ReplicaState.ApplyAllKeepsRaftCore | startup-news-backend/server.py:499-603 | applying a run of entries leaves the Raft fields alone |
| RaftRpc.UpToDateOfExtension | startup-news-backend/server.py:681-683 | a candidate holding our log, possibly extended by entries of no older term, passes the up-to-date check |
| RaftRpc.RequestVote | startup-news-backend/server.py:660-691 | a stale term is refused with nothing changed; a newer term is adopted as follower with the vote cleared; a vote is granted exactly when the term is current, the vote is free or already this candidate's, and the candidate's log is at least as up to date; the grant records the candidate |
| RaftRpc.FollowerCommitAsWritten | startup-news-backend/server.py:731-736 | as written: a commitIndex that leaderCommit does not pass is kept; otherwise the result is min(leaderCommit, len(log)); it lies below the old commitIndex exactly when leaderCommit is ahead and the log is shorter than commitIndex |
| RaftRpc.FollowerCommitAsWrittenRegresses | startup-news-backend/server.py:731-736 | with commitIndex 3, leaderCommit 5 and a log of one entry, the as-written rule gives 1 while the corrected rule keeps 3 |
| RaftRpc.FollowerCommit | startup-news-backend/server.py:731-736 | the corrected commit rule never lowers commitIndex; it rises exactly when leaderCommit and the log length both exceed it, and then to min(leaderCommit, len(log)) |
| RaftRpc.AppendEntries | startup-news-backend/server.py:694-752 | a stale term is refused with nothing changed; success exactly when the term is current and the log accepts prevLogIndex; prevLogIndex 0 replaces the log; otherwise the prefix is kept and the new terms are in place; when leaderCommit is ahead, commitIndex becomes min(leaderCommit, len(log)), which may be lower; it never decreases when the log reaches the old commitIndex; entries are applied only when commitIndex rose; an accepted request changes nothing else except through applying the committed entries |
| RaftRpc.AppendEntriesCorrected | startup-news-backend/server.py:694-752 | the same handler with the corrected commit rule: the same acceptance, commitIndex never decreases or passes leaderCommit, and a rise goes to min(leaderCommit, len(log)) with the new entries applied; nothing else changes except through applying them |
| RaftRpc.AcceptInTerm | startup-news-backend/server.py:705-752 | in the replica's own term: success exactly when the log accepts prevLogIndex, and a refusal changes nothing; term, vote and role are kept; prevLogIndex 0 replaces the log, otherwise the merge keeps the prefix and places the new terms; the commit follows the chosen rule; without a rise only the log and commitIndex change, and with a rise the result is exactly ApplyCommitted of that state |
| RaftRpc.CorrectedDiffersOnlyInCommit | startup-news-backend/server.py:731-741 | the two handlers agree whenever the source's rule does not lower commitIndex; otherwise they differ only in commitIndex, which the corrected one keeps |
| RaftRpc.AppendEntriesLowersCommit | startup-news-backend/server.py:716-741 | a term-1 follower with three committed and applied entries that gets prevLogIndex 0, one entry and leaderCommit 5 ends with commitIndex 1 below lastApplied 3; the corrected handler keeps 3 |
| Leadership.FirstQualifying | startup-news-backend/server.py:336-345 | the scan returns the smallest qualifying index at or above its start, or reports that none qualifies |
| Leadership.AdvanceLeader | startup-news-backend/server.py:329-345 | an acknowledgement moves nextIndex past the entries and sets matchIndex to nextIndex-1; commitIndex moves only to the smallest index above it with a current-term entry matched by a majority |
| Leadership.BackOff | startup-news-backend/server.py:347-352 | a refusal steps that follower's nextIndex back by one, never below 1, and touches nothing else |
| Leadership.StepDown | startup-news-backend/server.py:321-326 | a newer term in a reply makes the node a follower of that term with no vote |
| Leadership.HandleAppendEntriesResponse | startup-news-backend/server.py:318-352 | a newer reply term steps down; a non-leader ignores replies; success advances and applies, failure backs off; the term never decreases, the vote and log are kept within a term, and commitIndex never decreases |
| Leadership.CommitOnlyCurrentTerm | startup-news-backend/server.py:318-352 | across the whole reply handler, including applying, commitIndex rises only on a successful reply to a leader in its own term, and only to an index within the log holding an entry of that term and matched by a majority, counting the leader |
| Leadership.TallyVotes | startup-news-backend/server.py:198-209 | the first reply with a newer term ends the count with that term; otherwise the count is the number of granted replies |
| Leadership.BecomeLeader | startup-news-backend/server.py:218-225 | the node leads, and every other configured replica gets nextIndex len(log)+1 and matchIndex 0; other map entries are kept |
| Leadership.BecomeLeaderIdempotent | startup-news-backend/server.py:218-225 | becoming leader a second time changes nothing |
| Leadership.PeerWithSameLogGrants | startup-news-backend/server.py:177-185 | a peer in an older term with the same log as the candidate grants the candidate's request and records the vote |
| Leadership.BecomeCandidate | startup-news-backend/server.py:165-216 | a leader is unchanged; otherwise the term advances and the node votes for itself; a newer term in a reply makes it a follower of that term; otherwise it becomes BecomeLeader of its candidacy exactly when 1 + granted reaches the majority, and stays candidate if not |
| Leadership.CheckLeaderStatus | startup-news-backend/server.py:236-272 | only the role may change; a leader becomes follower exactly when 1 + the replies in its term fall below the majority |
| Leadership.AllAliveKeepsLeader | startup-news-backend/server.py:256-272 | a leader that hears its own term from every other replica keeps leading |
| Leadership.ReplicateCommand | startup-news-backend/server.py:640-653 | a non-leader returns FAILURE with nothing changed; the leader appends exactly one entry of its term, sets commitIndex to the log length and applies up to it, returning SUCCESS unless applying raised |
| Leadership.GetLeaderInfo | startup-news-backend/server.py:754-757 | SUCCESS with the node's own id exactly when it leads; otherwise FAILURE with no info |
| BlogRpc.LikeRequest | startup-news-backend/server.py:923-969 | a refused request changes nothing; SUCCESS only when every guard passes, and when they all pass the answer is SUCCESS unless replication raised; a failed guard answers FAILURE, except that a leader given more than two fields raises |
| BlogRpc.RpcLikePost | startup-news-backend/server.py:923-944 | refusals change nothing; SUCCESS only for a leader, with an existing post and subscriber who has not liked it; then one LIKE_POST entry is logged and the subscriber is appended to the likes |
| BlogRpc.RpcUnlikePost | startup-news-backend/server.py:947-969 | refusals change nothing; SUCCESS only for a leader, with an existing post and subscriber who has liked it; then one UNLIKE_POST entry is logged and the likes become list.remove of the subscriber |
| BlogRpc.LikeAppliesOnce | startup-news-backend/server.py:938-943 | with nothing left to apply, the like/unlike command is applied exactly once, right after it is logged |
| Discovery.FirstIndexWithId | startup-news-backend/server.py:40 | the lookup finds the first configuration position holding the id, or none exactly when no position holds it |
| Discovery.ScanFrom | startup-news-backend/server.py:33-47 | the scan from a position returns the leader named by the first probe at or after it that names a configured id, after probing up to that replica |
| Discovery.FindLeader | startup-news-backend/server.py:30-47 | probes run in configuration order; the result is the configuration named by the first SUCCESS reply with a configured id; failed, unreachable and unknown-id answers are skipped; None, after probing every replica, exactly when no probe qualifies |
| Discovery.UniqueLeaderIsFound | startup-news-backend/server.py:30-47 | when replicas answer by RPCGetLeaderInfo, ids are distinct and one reachable replica leads, the scan returns that replica |
| Safety.StepKeepsVote | startup-news-backend/server.py:667-691 | no handler lowers the term, and none changes a vote already cast within the same term |
| Safety.RunKeepsVote | startup-news-backend/server.py:667-691 | any sequence of handler calls keeps the term from going back and keeps a cast vote within the term |
| Safety.OneVotePerTerm | startup-news-backend/server.py:677-691 | after a vote is granted, and whatever happens next, a later grant for the same term goes to the same candidate |
| Safety.OneVotePerTermAcrossRuns | startup-news-backend/server.py:677-691 | within one event history, two grants for the same term name the same candidate |

## Left out

- gRPC channels, stubs and their construction (`build_stub`, `get_cluster_stubs`): replies from other replicas are inputs. `find_leader_stub` returns the leader's configuration instead of a stub to it.
- Persistence is disk and JSON I/O: `save_raft_state`, `load_raft_state`, `load_data`, `save_data`, `get_replicas_config`, and the `replicas.json` rewrite in `add_replica_local`/`remove_replica_local`. The configuration file is taken to equal the in-memory configuration.
- Election and heartbeat timers, per-follower threads and random timeouts are not modelled. Handlers run one at a time. Vote replies are tallied in the order given, which stands for the order the threads completed.
- `send_append_entries_to_all`, `append_entries_async` and `leader_heartbeat` only build requests and send them. The replies reach the model through `HandleAppendEntriesResponse`. `Server.__init__` and `stop` are left out too.
- The other client RPCs are outside this model: create post, login, account, subscribe, comment, delete, get, notifications and replica add/remove. So are `rest_bridge.py`, `test.py`, `start_servers.py` and `email_queue.py`.
- Password hashing (bcrypt) is opaque: a writer stores the password string as its credential. Email validation is not modelled.
- Timestamps are opaque strings. A CREATE_POST timestamp is stored as given, so a malformed timestamp does not raise as `datetime.fromisoformat` would. A comment takes the single clock reading `Env.now`. Post and comment dictionary and proto conversion are left out.
- The `User` class is not part of this model. A subscriber is assumed to have `posts`, `followers` and `subscriptions` lists, all empty at creation.
- Decoding the ADD_REPLICA JSON parameter is an input function, `Env.parseConfig`.
- ReplicaState.ApplyEntry: an ADD_REPLICA config that decodes but has no `id` is a plain raise that leaves the configuration unchanged. With an empty configuration the source first stores `[new_cfg]` as the configuration and only then raises the KeyError (server.py:610-617). A configuration entry without an id cannot be expressed in `ReplicaConfig`.
- Terms and indices are unbounded naturals. Protobuf integer widths are not modelled.
- Safety.OneVotePerTermAcrossRuns and the other vote lemmas hold within one process lifetime. `Server.__init__` clears `votedFor` on every start (server.py:84), so a restarted replica can vote a second time in a term it already voted in.
- RaftLog.FromDict: Python accepts values of any type under the three keys. The model rebuilds an entry only from an integer term, a string operation and a string list.
- BlogRpc.RpcLikePost: the effect on the like list is stated only for a leader that has applied its whole log. Earlier unapplied entries are applied first and may change the post.
- BlogRpc.RpcUnlikePost: the same restriction applies as for RpcLikePost.
- Leadership.ReplicateCommand: the effect on the database is not stated. It is whatever applying the newly committed entries does, as described for ApplyCommitted.

## Findings

| source | as written | input that shows it | evidently intended | confidence | as-written member | corrected member |
|---|---|---|---|---|---|---|
| startup-news-backend/consensus.py:158-170 | with prevLogIndex 0 and a matching first term, the new entries go after the whole existing log | log [t1, t2] receives [t1, t3] and becomes [t1, t2, t1, t3]; position 2 holds term 2, not 3 | entries are merged from position 1 like at every other index, so entry k sits at index k | medium, not executed; `AppendEntries` handles prevLogIndex 0 itself and never reaches this branch | RaftLog.AsWrittenBreaksLogMatching | RaftLog.AppendEntriesToLog |
| startup-news-backend/server.py:731-736 | commitIndex is set to min(leaderCommit, len(log)) whenever leaderCommit is ahead, even if the log is shorter than commitIndex | a term-1 follower with 3 committed entries gets prevLogIndex 0, one entry, leaderCommit 5; the log is replaced by one entry and commitIndex drops from 3 to 1 | commitIndex never decreases; the code's own `commit_index_changed` test assumes it only grows | medium, not executed; `RaftRpc.AppendEntries` keeps the rule as written, `RaftRpc.AppendEntriesCorrected` uses the corrected one | RaftRpc.AppendEntriesLowersCommit | RaftRpc.AppendEntriesCorrected |

=== FILE: blog.dfy ===
/** The replicated blog state machine: subscribers, writer accounts and posts,
    and the effect of each committed blog command on them. */
module Blog {
  import opened Wrappers
  import opened Posts

  /** A newsletter subscriber. The User class is not part of this model; the
      fields are the ones the state machine reads and writes, all empty for a
      new subscriber. */
  datatype User = User(email: string, posts: seq<string>, followers: seq<string>, subscriptions: seq<string>)

  /** A writer account. The password hash is an opaque credential derived from
      the password. */
  datatype Writer = Writer(email: string, name: string, credential: string)

  datatype Db = Db(users: map<string, User>, writers: map<string, Writer>, posts: map<string, Post>)

  const Subscribe: string := "SUBSCRIBE"
  const CreateAccount: string := "CREATE_ACCOUNT"
  const CommentPost: string := "COMMENT_POST"
  const CreatePost: string := "CREATE_POST"
  const LikePost: string := "LIKE_POST"
  const UnlikePost: string := "UNLIKE_POST"
  const DeletePost: string := "DELETE_POST"
  const DeleteAccount: string := "DELETE_ACCOUNT"

  function NewUser(email: string): User {
    User(email, [], [], [])
  }

  /** The commands on which applying raises an exception in the source: a
      comment on a missing post (KeyError), an account with an empty password
      (the Writer constructor's ValueError), too many parameters to unpack
      (ValueError), and deleting a post whose author is not a subscriber
      (KeyError). */
  predicate Raises(db: Db, op: string, params: seq<string>) {
    || (op == CreateAccount && |params| == 3 && params[1] !in db.writers && params[2] == "")
    || (op == CommentPost && |params| == 3 && params[0] !in db.posts)
    || (op == CreatePost && |params| > 5)
    || ((op == LikePost || op == UnlikePost || op == DeletePost) && |params| > 2)
    || (op == DeletePost && |params| == 2 && params[0] in db.posts
        && db.posts[params[0]].author == params[1] && params[1] !in db.users)
  }

  predicate IsBlogOp(op: string) {
    op in {Subscribe, CreateAccount, CommentPost, CreatePost, LikePost, UnlikePost, DeletePost, DeleteAccount}
  }

  /** Every post's like list is duplicate-free. */
  ghost predicate LikesDuplicateFree(db: Db) {
    forall id :: id in db.posts ==> NoDuplicates(db.posts[id].likes)
  }

  /** apply_blog_operation for the blog commands: None when the source raises.
      `now` is the clock reading used as a new comment's timestamp. */
  function ApplyBlogOp(db: Db, op: string, params: seq<string>, now: string): (r: Option<Db>)
    ensures r.None? <==> Raises(db, op, params)
    ensures !IsBlogOp(op) ==> r == Some(db)
    ensures r.Some? && op != CreateAccount ==> r.value.writers == db.writers
    ensures r.Some? && op != Subscribe && op != DeletePost && op != DeleteAccount ==> r.value.users == db.users
    ensures r.Some? && (op == Subscribe || op == CreateAccount) ==> r.value.posts == db.posts
    ensures op == Subscribe ==> r == Some(ApplySubscribe(db, params))
    ensures op == CreateAccount ==> r == ApplyCreateAccount(db, params)
    ensures op == CommentPost ==> r == ApplyComment(db, params, now)
    ensures op == CreatePost ==> r == ApplyCreatePost(db, params, now)
    ensures op == LikePost || op == UnlikePost ==> r == ApplyLike(db, params, op == LikePost)
    ensures op == DeletePost ==> r == ApplyDeletePost(db, params)
    ensures op == DeleteAccount ==> r == Some(if |params| < 1 then db else RemoveAccount(db, params[0]))
    ensures op == Subscribe && |params| == 1 ==>
      && r.Some? && r.value.users.Keys == db.users.Keys + {params[0]}
      && (params[0] in db.users ==> r.value == db)
      && (params[0] !in db.users ==> r.value.users[params[0]] == NewUser(params[0]))
    ensures op == CreateAccount && |params| == 3 && params[1] !in db.writers && params[2] != "" ==>
      && r.Some? && params[1] in r.value.writers
      && r.value.writers[params[1]] == Writer(params[1], params[0], params[2])
    ensures op == CommentPost && |params| == 3 && params[0] in db.posts ==>
      && r.Some? && params[0] in r.value.posts
      && r.value.posts[params[0]].comments == db.posts[params[0]].comments + [Comment(params[0], params[1], params[2], now)]
    ensures op == CreatePost && |params| == 5 ==>
      && r.Some? && params[0] in r.value.posts
      && r.value.posts[params[0]] == Post(params[3], params[1], params[2], params[4], [], Some(params[0]), [])
    ensures op == LikePost && |params| == 2 && params[0] in db.posts && params[1] in db.users ==>
      && r.Some? && params[0] in r.value.posts
      && r.value.posts[params[0]].likes == Like(db.posts[params[0]].likes, params[1]).likes
    ensures op == UnlikePost && |params| == 2 && params[0] in db.posts && params[1] in db.users ==>
      && r.Some? && params[0] in r.value.posts
      && r.value.posts[params[0]].likes == Unlike(db.posts[params[0]].likes, params[1]).likes
    ensures op == DeletePost && |params| == 2 && params[0] in db.posts && db.posts[params[0]].author == params[1] && params[1] in db.users ==>
      && r.Some? && params[0] !in r.value.posts && params[1] in r.value.users
      && r.value.users[params[1]].posts == RemoveFirst(db.users[params[1]].posts, params[0])
  {
    if op == Subscribe then Some(ApplySubscribe(db, params))
    else if op == CreateAccount then ApplyCreateAccount(db, params)
    else if op == CommentPost then ApplyComment(db, params, now)
    else if op == CreatePost then ApplyCreatePost(db, params, now)
    else if op == LikePost || op == UnlikePost then ApplyLike(db, params, op == LikePost)
    else if op == DeletePost then ApplyDeletePost(db, params)
    else if op == DeleteAccount then
      if |params| < 1 then Some(db)
      else Some(RemoveAccount(db, params[0]))
    else
      Some(db)
  }

  /** The SUBSCRIBE branch: a new address becomes a subscriber with empty
      lists; an existing one is left alone. */
  function ApplySubscribe(db: Db, params: seq<string>): (r: Db)
    ensures r.writers == db.writers && r.posts == db.posts
    ensures |params| != 1 ==> r == db
    ensures |params| == 1 ==> r.users.Keys == db.users.Keys + {params[0]}
    ensures |params| == 1 && params[0] in db.users ==> r == db
    ensures |params| == 1 && params[0] !in db.users ==> r.users[params[0]] == NewUser(params[0])
    ensures forall e :: e in db.users ==> e in r.users && r.users[e] == db.users[e]
  {
    if |params| != 1 then db
    else
      var email := params[0];
      if email !in db.users then db.(users := db.users[email := NewUser(email)]) else db
  }

  /** The CREATE_ACCOUNT branch: parameters name, email, password; None when
      the Writer constructor rejects an empty password. */
  function ApplyCreateAccount(db: Db, params: seq<string>): (r: Option<Db>)
    ensures r.None? <==> |params| == 3 && params[1] !in db.writers && params[2] == ""
    ensures r.Some? ==> r.value.users == db.users && r.value.posts == db.posts
    ensures |params| != 3 || params[1] in db.writers ==> r == Some(db)
    ensures r.Some? && r != Some(db) ==>
      && |params| == 3
      && r.value.writers.Keys == db.writers.Keys + {params[1]}
      && r.value.writers[params[1]] == Writer(params[1], params[0], params[2])
    ensures r.Some? ==> forall e :: e in db.writers ==> e in r.value.writers && r.value.writers[e] == db.writers[e]
    ensures |params| == 3 && params[1] !in db.writers && params[2] != "" ==> r.Some? && params[1] in r.value.writers
  {
    if |params| != 3 then Some(db)
    else
      var name, email, password := params[0], params[1], params[2];
      if email in db.writers then Some(db)
      else if password == "" then None
      else Some(db.(writers := db.writers[email := Writer(email, name, password)]))
  }

  /** The COMMENT_POST branch: parameters post id, email, text; the comment,
      stamped `now`, goes at the end of the post's comments. None when the
      post does not exist. */
  function ApplyComment(db: Db, params: seq<string>, now: string): (r: Option<Db>)
    ensures r.None? <==> |params| == 3 && params[0] !in db.posts
    ensures r.Some? ==> r.value.users == db.users && r.value.writers == db.writers
    ensures r.Some? ==> r.value.posts.Keys == db.posts.Keys
    ensures |params| != 3 ==> r == Some(db)
    ensures |params| == 3 && params[0] in db.posts ==>
      var p := db.posts[params[0]];
      && r.Some?
      && r.value.posts[params[0]] == p.(comments := p.comments + [Comment(params[0], params[1], params[2], now)])
      && forall id :: id in db.posts && id != params[0] ==> r.value.posts[id] == db.posts[id]
  {
    if |params| != 3 then Some(db)
    else
      var postId, email, text := params[0], params[1], params[2];
      if postId !in db.posts then None
      else
        var p := db.posts[postId];
        Some(db.(posts := db.posts[postId := p.(comments := p.comments + [Comment(postId, email, text, now)])]))
  }

  /** The CREATE_POST branch: parameters post id, title, content, author,
      timestamp; the post is stored under its id with no likes and no
      comments, replacing any post with that id. None on extra parameters. */
  function ApplyCreatePost(db: Db, params: seq<string>, now: string): (r: Option<Db>)
    ensures r.None? <==> |params| > 5
    ensures r.Some? ==> r.value.users == db.users && r.value.writers == db.writers
    ensures |params| < 5 ==> r == Some(db)
    ensures |params| == 5 ==>
      && r.Some? && r.value.posts.Keys == db.posts.Keys + {params[0]}
      && r.value.posts[params[0]] == Post(params[3], params[1], params[2], params[4], [], Some(params[0]), [])
      && forall id :: id in db.posts && id != params[0] ==> r.value.posts[id] == db.posts[id]
  {
    if |params| < 5 then Some(db)
    else if |params| > 5 then None
    else
      var postId, title, content, author, timestamp := params[0], params[1], params[2], params[3], params[4];
      Some(db.(posts := db.posts[postId := NewPost(author, title, content, None, Some(postId), Some(timestamp), now)]))
  }

  /** The LIKE_POST (`liking`) and UNLIKE_POST branches: parameters post id,
      username; the post's like list goes through Post.like or Post.unlike
      when both exist. None on extra parameters. */
  function ApplyLike(db: Db, params: seq<string>, liking: bool): (r: Option<Db>)
    ensures r.None? <==> |params| > 2
    ensures r.Some? ==> r.value.users == db.users && r.value.writers == db.writers
    ensures r.Some? ==> r.value.posts.Keys == db.posts.Keys
    ensures |params| < 2 ==> r == Some(db)
    ensures |params| == 2 && !(params[0] in db.posts && params[1] in db.users) ==> r == Some(db)
    ensures |params| == 2 && params[0] in db.posts && params[1] in db.users ==>
      var p := db.posts[params[0]];
      && r.Some?
      && r.value.posts[params[0]] == p.(likes := (if liking then Like(p.likes, params[1]) else Unlike(p.likes, params[1])).likes)
      && forall id :: id in db.posts && id != params[0] ==> r.value.posts[id] == db.posts[id]
  {
    if |params| < 2 then Some(db)
    else if |params| > 2 then None
    else
      var postId, username := params[0], params[1];
      if postId in db.posts && username in db.users then
        var p := db.posts[postId];
        var likes := if liking then Like(p.likes, username).likes else Unlike(p.likes, username).likes;
        Some(db.(posts := db.posts[postId := p.(likes := likes)]))
      else Some(db)
  }

  /** The DELETE_POST branch: parameters post id, author; only the author's own
      post is deleted, and it leaves the author's post list. None on extra
      parameters, or when the author is not a subscriber. */
  function ApplyDeletePost(db: Db, params: seq<string>): (r: Option<Db>)
    ensures r.None? <==>
      || |params| > 2
      || (|params| == 2 && params[0] in db.posts && db.posts[params[0]].author == params[1] && params[1] !in db.users)
    ensures r.Some? ==> r.value.writers == db.writers && r.value.users.Keys == db.users.Keys
    ensures |params| < 2 ==> r == Some(db)
    ensures |params| == 2 && !(params[0] in db.posts && db.posts[params[0]].author == params[1]) ==> r == Some(db)
    ensures |params| == 2 && params[0] in db.posts && db.posts[params[0]].author == params[1] && params[1] in db.users ==>
      r.Some? && params[0] !in r.value.posts
    ensures r.Some? && r != Some(db) ==>
      && |params| == 2 && params[0] in db.posts && db.posts[params[0]].author == params[1]
      && r.value.posts == db.posts - {params[0]}
      && r.value.users[params[1]].posts == RemoveFirst(db.users[params[1]].posts, params[0])
      && r.value.users[params[1]] == db.users[params[1]].(posts := RemoveFirst(db.users[params[1]].posts, params[0]))
      && forall e :: e in db.users && e != params[1] ==> r.value.users[e] == db.users[e]
  {
    if |params| < 2 then Some(db)
    else if |params| > 2 then None
    else
      var postId, author := params[0], params[1];
      if postId in db.posts && author == db.posts[postId].author then
        if author !in db.users then None
        else
          var u := db.users[author];
          Some(db.(users := db.users[author := u.(posts := RemoveFirst(u.posts, postId))],
                   posts := db.posts - {postId}))
      else Some(db)
  }

  /** The DELETE_ACCOUNT branch: when `username` is a subscriber, it is removed
      from every follower and subscription list (first occurrence, as
      `list.remove` does), the posts it owns are deleted, and then the
      subscriber itself. */
  function RemoveAccount(db: Db, username: string): (r: Db)
    ensures username !in db.users ==> r == db
    ensures username in db.users ==> r.users.Keys == db.users.Keys - {username}
    ensures username in db.users ==>
      forall id :: id in r.posts <==> id in db.posts && id !in db.users[username].posts
    ensures forall id :: id in r.posts ==> id in db.posts && r.posts[id] == db.posts[id]
    ensures username in db.users ==> forall e :: e in r.users ==>
      && e in db.users
      && r.users[e].email == db.users[e].email && r.users[e].posts == db.users[e].posts
      && r.users[e].followers == RemoveFirst(db.users[e].followers, username)
      && r.users[e].subscriptions == RemoveFirst(db.users[e].subscriptions, username)
    ensures r.writers == db.writers
  {
    if username !in db.users then db
    else
      var owned := db.users[username].posts;
      var scrubbed := map e | e in db.users ::
        db.users[e].(followers := RemoveFirst(db.users[e].followers, username),
                     subscriptions := RemoveFirst(db.users[e].subscriptions, username));
      var posts := map id | id in db.posts && id !in owned :: db.posts[id];
      db.(users := scrubbed - {username}, posts := posts)
  }

  /** Every follower and subscription list is duplicate-free. */
  ghost predicate ListsDuplicateFree(db: Db) {
    forall e :: e in db.users ==> NoDuplicates(db.users[e].followers) && NoDuplicates(db.users[e].subscriptions)
  }

  /** With duplicate-free lists, deleting an account leaves no trace of it in
      any remaining follower or subscription list. */
  lemma RemoveAccountForgetsUser(db: Db, username: string)
    requires username in db.users
    requires ListsDuplicateFree(db)
    ensures forall e :: e in RemoveAccount(db, username).users ==>
      username !in RemoveAccount(db, username).users[e].followers
      && username !in RemoveAccount(db, username).users[e].subscriptions
  {
    var r := RemoveAccount(db, username);
    forall e | e in r.users
      ensures username !in r.users[e].followers && username !in r.users[e].subscriptions
    {
      var u := db.users[e];
      assert r.users[e].followers == RemoveFirst(u.followers, username);
      assert r.users[e].subscriptions == RemoveFirst(u.subscriptions, username);
      RemoveFirstNoDuplicates(u.followers, username);
      RemoveFirstNoDuplicates(u.subscriptions, username);
    }
  }

  /** No blog command introduces a duplicate into a like list. */
  lemma ApplyKeepsLikesDuplicateFree(db: Db, op: string, params: seq<string>, now: string)
    requires LikesDuplicateFree(db)
    requires ApplyBlogOp(db, op, params, now).Some?
    ensures LikesDuplicateFree(ApplyBlogOp(db, op, params, now).value)
  {
    var r := ApplyBlogOp(db, op, params, now).value;
    if (op == LikePost || op == UnlikePost) && |params| == 2 && params[0] in db.posts && params[1] in db.users {
      var p := db.posts[params[0]];
      LikeKeepsSet(p.likes, params[1]);
      UnlikeKeepsSet(p.likes, params[1]);
      assert r == ApplyLike(db, params, op == LikePost).value;
      forall id | id in r.posts ensures NoDuplicates(r.posts[id].likes) {
        if id != params[0] {
          assert r.posts[id] == db.posts[id];
        }
      }
    } else if op == CommentPost && |params| == 3 {
      forall id | id in r.posts ensures NoDuplicates(r.posts[id].likes) {
        assert r.posts[id].likes == db.posts[id].likes;
      }
    } else if op == CreatePost && |params| == 5 {
      forall id | id in r.posts ensures NoDuplicates(r.posts[id].likes) {
        if id != params[0] {
          assert r.posts[id] == db.posts[id];
        }
      }
    } else if op == DeletePost || op == DeleteAccount {
      forall id | id in r.posts ensures NoDuplicates(r.posts[id].likes) {
        assert r.posts[id] == db.posts[id];
      }
    } else {
      assert r.posts == db.posts;
    }
  }

  /** Subscribing is idempotent: a second SUBSCRIBE of the same address
      changes nothing. */
  lemma SubscribeIdempotent(db: Db, email: string, now: string)
    ensures ApplyBlogOp(db, Subscribe, [email], now).Some?
    ensures
      var once := ApplyBlogOp(db, Subscribe, [email], now).value;
      ApplyBlogOp(once, Subscribe, [email], now) == Some(once) && email in once.users
  {
  }
}

=== FILE: blog_rpc.dfy ===
/** The client-facing like/unlike RPCs of the server: their guards, and the
    replicated command they issue once every guard passes. */
module BlogRpc {
  import opened Wrappers
  import opened RaftLog
  import opened Posts
  import opened Blog
  import opened ReplicaState
  import opened Leadership

  datatype Response = Response(operation: int, info: seq<string>)

  /** The state after an RPC and its response; no response when the handler
      raised. */
  datatype RpcOutcome = RpcOutcome(node: Node, response: Option<Response>)

  function Fail(n: Node, message: string): RpcOutcome {
    RpcOutcome(n, Some(Response(FAILURE, [message])))
  }

  /** Every guard of the like (`liking`) or unlike RPC passes: this replica
      leads, the request names exactly a post and a subscriber that exist, and
      the subscriber has not yet liked (or has liked) the post. */
  predicate GuardsPass(n: Node, info: seq<string>, liking: bool) {
    && n.role == Leader
    && |info| == 2
    && info[0] in n.db.posts
    && info[1] in n.db.users
    && (if liking then info[1] !in n.db.posts[info[0]].likes else info[1] in n.db.posts[info[0]].likes)
  }

  /** The shared body of RPCLikePost and RPCUnlikePost. More than two request
      fields fail to unpack (a ValueError), which is a raise. */
  function LikeRequest(n: Node, info: seq<string>, env: Env, liking: bool): (r: RpcOutcome)
    ensures r.response.Some? && r.response.value.operation == FAILURE ==> r.node == n
    ensures r.response.Some? && r.response.value.operation == SUCCESS ==> GuardsPass(n, info, liking)
    ensures r.response.Some? ==> r.response.value.operation == SUCCESS || r.response.value.operation == FAILURE
    ensures r.response.None? && !GuardsPass(n, info, liking) ==> r.node == n
    ensures GuardsPass(n, info, liking) ==> r.response.None? || r.response == Some(Response(SUCCESS, []))
    ensures !GuardsPass(n, info, liking) && !(n.role == Leader && |info| > 2) ==>
      r.response.Some? && r.response.value.operation == FAILURE
    ensures n.role == Leader && |info| > 2 ==> r == RpcOutcome(n, None)
  {
    if n.role != Leader then Fail(n, "Not leader")
    else if |info| < 2 then Fail(n, "Missing post_id/username")
    else if |info| > 2 then RpcOutcome(n, None)
    else
      var postId, username := info[0], info[1];
      if postId !in n.db.posts then Fail(n, "Post does not exist")
      else if username !in n.db.users then Fail(n, "User does not exist")
      else if liking && username in n.db.posts[postId].likes then Fail(n, "Post already liked")
      else if !liking && username !in n.db.posts[postId].likes then Fail(n, "Post not liked")
      else
        var rep := ReplicateCommand(n, if liking then LikePost else UnlikePost, [postId, username], env);
        match rep.status
        case None => RpcOutcome(rep.node, None)
        case Some(s) =>
          if s == SUCCESS then RpcOutcome(rep.node, Some(Response(SUCCESS, [])))
          else Fail(rep.node, "Could not replicate")
  }

  /** RPCLikePost. When the leader has applied its whole log, a request that
      passes the guards succeeds, logs one LIKE_POST entry, and appends the
      subscriber to the post's like list. */
  function RpcLikePost(n: Node, info: seq<string>, env: Env): (r: RpcOutcome)
    ensures r.response.Some? && r.response.value.operation == FAILURE ==> r.node == n
    ensures r.response.Some? && r.response.value.operation == SUCCESS ==> GuardsPass(n, info, true)
    ensures GuardsPass(n, info, true) && n.lastApplied == |n.log| ==>
      && r.response == Some(Response(SUCCESS, []))
      && r.node.log == n.log + [Entry(n.currentTerm, LikePost, info)]
      && info[0] in r.node.db.posts
      && r.node.db.posts[info[0]].likes == n.db.posts[info[0]].likes + [info[1]]
  {
    LikeAppliesOnce(n, info, env, true);
    LikeRequest(n, info, env, true)
  }

  /** RPCUnlikePost. When the leader has applied its whole log, a request that
      passes the guards succeeds, logs one UNLIKE_POST entry, and removes the
      first occurrence of the subscriber from the post's like list. */
  function RpcUnlikePost(n: Node, info: seq<string>, env: Env): (r: RpcOutcome)
    ensures r.response.Some? && r.response.value.operation == FAILURE ==> r.node == n
    ensures r.response.Some? && r.response.value.operation == SUCCESS ==> GuardsPass(n, info, false)
    ensures GuardsPass(n, info, false) && n.lastApplied == |n.log| ==>
      && r.response == Some(Response(SUCCESS, []))
      && r.node.log == n.log + [Entry(n.currentTerm, UnlikePost, info)]
      && info[0] in r.node.db.posts
      && r.node.db.posts[info[0]].likes == RemoveFirst(n.db.posts[info[0]].likes, info[1])
  {
    LikeAppliesOnce(n, info, env, false);
    LikeRequest(n, info, env, false)
  }

  /** With nothing left to apply, replicating the like/unlike command applies
      exactly that one command. */
  lemma LikeAppliesOnce(n: Node, info: seq<string>, env: Env, liking: bool)
    ensures GuardsPass(n, info, liking) && n.lastApplied == |n.log| ==>
      var r := LikeRequest(n, info, env, liking);
      var p := n.db.posts[info[0]];
      && r.response == Some(Response(SUCCESS, []))
      && r.node.log == n.log + [Entry(n.currentTerm, if liking then LikePost else UnlikePost, info)]
      && info[0] in r.node.db.posts
      && r.node.db.posts[info[0]].likes == (if liking then Like(p.likes, info[1]) else Unlike(p.likes, info[1])).likes
  {
    if GuardsPass(n, info, liking) && n.lastApplied == |n.log| {
      LikeAppliesOnceGuarded(n, info, env, liking);
    }
  }

  lemma LikeAppliesOnceGuarded(n: Node, info: seq<string>, env: Env, liking: bool)
    requires GuardsPass(n, info, liking) && n.lastApplied == |n.log|
    ensures
      var r := LikeRequest(n, info, env, liking);
      var p := n.db.posts[info[0]];
      && r.response == Some(Response(SUCCESS, []))
      && r.node.log == n.log + [Entry(n.currentTerm, if liking then LikePost else UnlikePost, info)]
      && info[0] in r.node.db.posts
      && r.node.db.posts[info[0]].likes == (if liking then Like(p.likes, info[1]) else Unlike(p.likes, info[1])).likes
  {
    var op := if liking then LikePost else UnlikePost;
    var e := Entry(n.currentTerm, op, [info[0], info[1]]);
    assert [info[0], info[1]] == info;
    var n1 := n.(log := n.log + [e]);
    var n2 := n1.(commitIndex := |n1.log|);
    var n3 := n2.(lastApplied := n2.lastApplied + 1);
    assert n2.log[n2.lastApplied] == e;
    var m := ApplyEntry(n3, e, env);
    assert m.Some?;
    assert ApplyCommitted(m.value, env) == Applied(m.value, false);
    assert ApplyCommitted(n2, env) == Applied(m.value, false);
  }
}

=== FILE: discovery.dfy ===
/** The client's leader discovery (find_leader_stub): ask every configured
    replica, in configuration order, who leads, and take the first usable
    answer. The RPC replies are inputs. */
module Discovery {
  import opened Wrappers
  import opened ReplicaState
  import opened Leadership

  /** The reply of one replica to RPCGetLeaderInfo, or an unreachable replica
      (a connection error or the two-second timeout). */
  datatype Probe = Answered(operation: int, info: seq<string>) | Unreachable

  /** The position of the first configuration entry with the given id at or
      after `from`, as `next(...)` scans for it. */
  function FirstIndexWithId(replicas: seq<ReplicaConfig>, id: string, from: nat): (r: Option<nat>)
    requires from <= |replicas|
    ensures r.Some? ==> from <= r.value < |replicas| && replicas[r.value].id == id
    ensures r.Some? ==> forall j :: from <= j < r.value ==> replicas[j].id != id
    ensures r.None? ==> forall j :: from <= j < |replicas| ==> replicas[j].id != id
    decreases |replicas| - from
  {
    if from == |replicas| then None
    else if replicas[from].id == id then Some(from)
    else FirstIndexWithId(replicas, id, from + 1)
  }

  /** The configuration a probe points the client to: the entry with the id
      in a SUCCESS reply, None for a failed, empty, unreachable or unknown-id
      answer. */
  function Named(p: Probe, replicas: seq<ReplicaConfig>): Option<ReplicaConfig> {
    if p.Answered? && p.operation == SUCCESS && |p.info| > 0 then
      match FirstIndexWithId(replicas, p.info[0], 0)
      case Some(k) => Some(replicas[k])
      case None => None
    else None
  }

  /** The leader found, if any, and how many replicas were asked. */
  datatype Found = Found(leader: Option<ReplicaConfig>, probed: nat)

  /** The scan from position `i` of the configuration on. */
  function ScanFrom(replicas: seq<ReplicaConfig>, probes: seq<Probe>, i: nat): (r: Found)
    requires |probes| == |replicas| && i <= |replicas|
    ensures r.leader.None? <==> forall j :: i <= j < |probes| ==> Named(probes[j], replicas).None?
    ensures r.leader.None? ==> r.probed == |replicas|
    ensures r.leader.Some? ==> i < r.probed <= |probes| && r.leader == Named(probes[r.probed - 1], replicas)
    ensures r.leader.Some? ==> forall j :: i <= j < r.probed - 1 ==> Named(probes[j], replicas).None?
    decreases |replicas| - i
  {
    if i == |replicas| then Found(None, |replicas|)
    else
      var named := Named(probes[i], replicas);
      if named.Some? then Found(named, i + 1) else ScanFrom(replicas, probes, i + 1)
  }

  /** find_leader_stub: `probes[i]` is what replica `replicas[i]` answered.
      The scan stops at the first probe that names a configured replica. */
  function FindLeader(replicas: seq<ReplicaConfig>, probes: seq<Probe>): (r: Found)
    requires |probes| == |replicas|
    ensures r.leader.None? <==> forall j :: 0 <= j < |probes| ==> Named(probes[j], replicas).None?
    ensures r.leader.None? ==> r.probed == |replicas|
    ensures r.leader.Some? ==> r.leader.value in replicas
    ensures r.leader.Some? ==> 0 < r.probed <= |probes| && r.leader == Named(probes[r.probed - 1], replicas)
    ensures r.leader.Some? ==> forall j :: 0 <= j < r.probed - 1 ==> Named(probes[j], replicas).None?
  {
    ScanFrom(replicas, probes, 0)
  }

  /** What a reachable replica answers, by RPCGetLeaderInfo. */
  function ProbeOf(n: Node): Probe {
    var info := GetLeaderInfo(n);
    Answered(info.operation, info.info)
  }

  /** Configuration ids are distinct. */
  predicate DistinctIds(replicas: seq<ReplicaConfig>) {
    forall i, j :: 0 <= i < j < |replicas| ==> replicas[i].id != replicas[j].id
  }

  /** With distinct ids, when the replicas answer by RPCGetLeaderInfo and
      exactly one reachable replica leads, the scan returns that replica's
      configuration, whatever the other replicas answered or whether they
      were reachable. */
  lemma UniqueLeaderIsFound(nodes: seq<Node>, replicas: seq<ReplicaConfig>, probes: seq<Probe>, k: nat)
    requires |nodes| == |replicas| == |probes| && k < |nodes|
    requires DistinctIds(replicas)
    requires forall i :: 0 <= i < |nodes| ==> nodes[i].id == replicas[i].id
    requires forall i :: 0 <= i < |probes| ==> probes[i] == Unreachable || probes[i] == ProbeOf(nodes[i])
    requires probes[k] == ProbeOf(nodes[k]) && nodes[k].role == Leader
    requires forall i :: 0 <= i < |nodes| && i != k ==> nodes[i].role != Leader
    ensures FindLeader(replicas, probes).leader == Some(replicas[k])
  {
    var r := FindLeader(replicas, probes);
    forall j | 0 <= j < k ensures Named(probes[j], replicas).None? {
      assert nodes[j].role != Leader;
    }
    assert probes[k].info[0] == replicas[k].id;
    assert r.probed - 1 == k;
    assert FirstIndexWithId(replicas, replicas[k].id, 0) == Some(k);
  }
}

=== FILE: leadership.dfy ===
/** The candidate and leader side of the server: counting votes, taking
    leadership, the step-down test, replicating a client command, processing
    AppendEntries replies and advancing commitIndex (section 5.4.2 of the Raft
    paper), and the leader-info query. RPC replies arrive as inputs. */
module Leadership {
  import opened Wrappers
  import opened RaftLog
  import opened ReplicaState
  import opened RaftRpc

  /** The number of followers whose matchIndex has reached `idx`. */
  function CountMatched(matchIndex: map<string, nat>, idx: nat): nat {
    |set rid | rid in matchIndex && matchIndex[rid] >= idx|
  }

  /** Index `idx` may be committed by the leader: it holds an entry of the
      current term and, counting the leader itself, a majority of the cluster
      has matched it. */
  predicate CommitQualifies(log: Log, term: nat, matchIndex: map<string, nat>, clusterSize: nat, idx: nat) {
    && 1 <= idx <= |log|
    && log[idx - 1].term == term
    && 1 + CountMatched(matchIndex, idx) >= Majority(clusterSize)
  }

  /** The scan over indices from `from` up to the end of the log, stopping at
      the first that qualifies. */
  function FirstQualifying(log: Log, term: nat, matchIndex: map<string, nat>, clusterSize: nat, from: nat): (r: Option<nat>)
    requires from >= 1
    ensures r.Some? ==> from <= r.value && CommitQualifies(log, term, matchIndex, clusterSize, r.value)
    ensures r.Some? ==> forall k :: from <= k < r.value ==> !CommitQualifies(log, term, matchIndex, clusterSize, k)
    ensures r.None? ==> forall k :: from <= k ==> !CommitQualifies(log, term, matchIndex, clusterSize, k)
    decreases |log| + 1 - from
  {
    if from > |log| then None
    else if CommitQualifies(log, term, matchIndex, clusterSize, from) then Some(from)
    else FirstQualifying(log, term, matchIndex, clusterSize, from + 1)
  }

  /** The success branch of handle_append_entries_response before committed
      entries are applied: the follower's nextIndex moves past the entries it
      acknowledged and its matchIndex follows, then commitIndex moves to the
      first index above it that qualifies, if any. */
  function AdvanceLeader(n: Node, followerId: string, count: nat): (r: Node)
    requires count > 0 ==> followerId in n.nextIndex
    ensures count > 0 ==> r.nextIndex == n.nextIndex[followerId := n.nextIndex[followerId] + count]
    ensures count > 0 ==> r.matchIndex == n.matchIndex[followerId := r.nextIndex[followerId] - 1]
    ensures count == 0 ==> r.nextIndex == n.nextIndex && r.matchIndex == n.matchIndex
    ensures r == n.(nextIndex := r.nextIndex, matchIndex := r.matchIndex, commitIndex := r.commitIndex)
    ensures r.commitIndex >= n.commitIndex
    ensures r.commitIndex > n.commitIndex ==>
      CommitQualifies(r.log, r.currentTerm, r.matchIndex, |r.config|, r.commitIndex)
    ensures forall k :: n.commitIndex < k < r.commitIndex ==>
      !CommitQualifies(r.log, r.currentTerm, r.matchIndex, |r.config|, k)
    ensures r.commitIndex == n.commitIndex ==> forall k :: n.commitIndex < k ==>
      !CommitQualifies(r.log, r.currentTerm, r.matchIndex, |r.config|, k)
  {
    var n1 :=
      if count > 0 then
        var next := n.nextIndex[followerId] + count;
        n.(nextIndex := n.nextIndex[followerId := next], matchIndex := n.matchIndex[followerId := next - 1])
      else n;
    match FirstQualifying(n1.log, n1.currentTerm, n1.matchIndex, |n1.config|, n1.commitIndex + 1)
    case None => n1
    case Some(c) => n1.(commitIndex := c)
  }

  /** The failure branch: nextIndex steps back by one, but not below 1. */
  function BackOff(n: Node, followerId: string): (r: Node)
    requires followerId in n.nextIndex
    ensures r == n.(nextIndex := r.nextIndex)
    ensures r.nextIndex.Keys == n.nextIndex.Keys
    ensures forall k :: k in n.nextIndex && k != followerId ==> r.nextIndex[k] == n.nextIndex[k]
    ensures n.nextIndex[followerId] > 1 ==> r.nextIndex[followerId] == n.nextIndex[followerId] - 1
    ensures n.nextIndex[followerId] <= 1 ==> r.nextIndex[followerId] == n.nextIndex[followerId]
  {
    if n.nextIndex[followerId] > 1 then n.(nextIndex := n.nextIndex[followerId := n.nextIndex[followerId] - 1]) else n
  }

  /** Adopting a newer term seen in a reply: follower, no vote. */
  function StepDown(n: Node, term: nat): (r: Node)
    requires term > n.currentTerm
    ensures r.role == Follower && r.votedFor.None? && r.currentTerm == term
    ensures r == n.(role := r.role, votedFor := r.votedFor, currentTerm := r.currentTerm)
  {
    n.(role := Follower, currentTerm := term, votedFor := None)
  }

  /** handle_append_entries_response. A missing per-follower entry where the
      source indexes nextIndex (a KeyError) is reported as raised with the state
      unchanged. */
  function HandleAppendEntriesResponse(n: Node, resp: Option<AppendReply>, followerId: string,
                                       req: AppendRequest, env: Env): (r: Applied)
    ensures resp.None? ==> r == Applied(n, false)
    ensures resp.Some? && resp.value.term > n.currentTerm ==>
      !r.raised && r.node == StepDown(n, resp.value.term)
    ensures resp.Some? && resp.value.term <= n.currentTerm && n.role != Leader ==> r == Applied(n, false)
    ensures r.node.currentTerm >= n.currentTerm
    ensures r.node.currentTerm == n.currentTerm ==> r.node.votedFor == n.votedFor && r.node.log == n.log
    ensures r.node.commitIndex >= n.commitIndex
    ensures resp.Some? && resp.value.term <= n.currentTerm && n.role == Leader && !resp.value.success ==>
      if followerId in n.nextIndex then r == Applied(BackOff(n, followerId), false) else r == Applied(n, true)
    ensures resp.Some? && resp.value.term <= n.currentTerm && n.role == Leader && resp.value.success ==>
      if |req.entries| > 0 && followerId !in n.nextIndex then r == Applied(n, true)
      else r == ApplyCommitted(AdvanceLeader(n, followerId, |req.entries|), env)
  {
    if resp.None? then Applied(n, false)
    else if resp.value.term > n.currentTerm then Applied(StepDown(n, resp.value.term), false)
    else if n.role != Leader then Applied(n, false)
    else if resp.value.success then
      if |req.entries| > 0 && followerId !in n.nextIndex then Applied(n, true)
      else ApplyCommitted(AdvanceLeader(n, followerId, |req.entries|), env)
    else if followerId !in n.nextIndex then Applied(n, true)
    else Applied(BackOff(n, followerId), false)
  }

  /** Across the whole reply handler, including applying what became
      committed: commitIndex rises only on a successful reply to a leader in
      its own term, and only to an index holding an entry of that term which
      a majority, counting the leader, has matched. An index from an older
      term is never committed on its own count. */
  lemma CommitOnlyCurrentTerm(n: Node, resp: Option<AppendReply>, followerId: string, req: AppendRequest, env: Env)
    ensures
      var r := HandleAppendEntriesResponse(n, resp, followerId, req, env);
      r.node.commitIndex > n.commitIndex ==>
        && n.role == Leader && resp.Some? && resp.value.success && resp.value.term <= n.currentTerm
        && r.node.currentTerm == n.currentTerm
        && (|req.entries| > 0 ==> followerId in n.nextIndex)
        && 1 <= r.node.commitIndex <= |r.node.log|
        && r.node.log[r.node.commitIndex - 1].term == n.currentTerm
        && 1 + CountMatched(AdvanceLeader(n, followerId, |req.entries|).matchIndex, r.node.commitIndex) >= Majority(|n.config|)
  {
  }

  /** The outcome of collecting RequestVote replies: a newer term seen first,
      or the number of votes granted. */
  datatype Tally = SawNewerTerm(term: nat) | Votes(granted: nat)

  predicate NewerTerm(reply: Option<VoteReply>, term: nat) {
    reply.Some? && reply.value.term > term
  }

  predicate Granted(reply: Option<VoteReply>) {
    reply.Some? && reply.value.voteGranted
  }

  /** The counting loop of become_candidate over the collected replies, in
      order; a failed RPC is None and skipped. */
  function TallyVotes(results: seq<Option<VoteReply>>, term: nat): (t: Tally)
    ensures t.SawNewerTerm? <==> exists i :: 0 <= i < |results| && NewerTerm(results[i], term)
    ensures t.SawNewerTerm? ==> exists i :: (0 <= i < |results| && NewerTerm(results[i], term)
      && t.term == results[i].value.term && forall j :: 0 <= j < i ==> !NewerTerm(results[j], term))
    ensures t.Votes? ==> t.granted == |set i | 0 <= i < |results| && Granted(results[i])|
    decreases |results|
  {
    if results == [] then Votes(0)
    else
      var prefix := results[..|results| - 1];
      var last := results[|results| - 1];
      assert forall i :: 0 <= i < |prefix| ==> prefix[i] == results[i];
      match TallyVotes(prefix, term)
      case SawNewerTerm(t) => SawNewerTerm(t)
      case Votes(v) =>
        if NewerTerm(last, term) then SawNewerTerm(last.value.term)
        else
          var before := set i | 0 <= i < |prefix| && Granted(prefix[i]);
          var all := set i | 0 <= i < |results| && Granted(results[i]);
          if Granted(last) then
            assert all == before + {|results| - 1};
            Votes(v + 1)
          else
            assert all == before;
            Votes(v)
  }

  /** become_leader: the role changes and, for every other configured replica,
      nextIndex restarts just past the leader's log and matchIndex at 0. */
  function BecomeLeader(n: Node): (r: Node)
    ensures r.role == Leader
    ensures r == n.(role := Leader, nextIndex := r.nextIndex, matchIndex := r.matchIndex)
    ensures r.nextIndex.Keys == n.nextIndex.Keys + PeerIds(n)
    ensures r.matchIndex.Keys == n.matchIndex.Keys + PeerIds(n)
    ensures forall p :: p in PeerIds(n) ==> r.nextIndex[p] == |n.log| + 1 && r.matchIndex[p] == 0
    ensures forall k :: k in n.nextIndex && k !in PeerIds(n) ==> r.nextIndex[k] == n.nextIndex[k]
    ensures forall k :: k in n.matchIndex && k !in PeerIds(n) ==> r.matchIndex[k] == n.matchIndex[k]
  {
    var peers := PeerIds(n);
    n.(role := Leader,
       nextIndex := map k | k in n.nextIndex.Keys + peers :: if k in peers then |n.log| + 1 else n.nextIndex[k],
       matchIndex := map k | k in n.matchIndex.Keys + peers :: if k in peers then 0 else n.matchIndex[k])
  }

  /** Becoming leader twice is becoming leader once: the peers' indices are
      already reset, and everything else is as the first call left it. */
  lemma BecomeLeaderIdempotent(n: Node)
    ensures BecomeLeader(BecomeLeader(n)) == BecomeLeader(n)
  {
  }

  /** The first half of become_candidate for a non-leader: the next term, with
      its vote for itself. */
  function Candidacy(n: Node): Node {
    n.(role := Candidate, currentTerm := n.currentTerm + 1, votedFor := Some(n.id))
  }

  /** The RequestVote request a candidate sends. */
  function CandidateRequest(n: Node): VoteRequest {
    VoteRequest(n.currentTerm, n.id, LastLogIndex(n.log), LastLogTerm(n.log))
  }

  /** A peer that has not reached the candidate's new term and holds the same
      log as the candidate grants it its vote, and records it. */
  lemma PeerWithSameLogGrants(n: Node, peer: Node)
    requires peer.currentTerm <= n.currentTerm
    requires peer.log == n.log
    ensures RequestVote(peer, CandidateRequest(Candidacy(n))).reply.voteGranted
    ensures RequestVote(peer, CandidateRequest(Candidacy(n))).node.votedFor == Some(n.id)
  {
  }

  /** become_candidate with the replies to its RequestVote calls given as
      `results`: a non-leader moves to the next term and votes for itself;
      a reply with a newer term makes it a follower of that term; otherwise
      a majority, counting its own vote, makes it leader. */
  function BecomeCandidate(n: Node, results: seq<Option<VoteReply>>): (r: Node)
    ensures n.role == Leader ==> r == n
    ensures r.log == n.log && r.commitIndex == n.commitIndex && r.lastApplied == n.lastApplied && r.db == n.db
    ensures n.role != Leader ==> r.currentTerm > n.currentTerm
    ensures n.role != Leader && TallyVotes(results, n.currentTerm + 1).SawNewerTerm? ==>
      r == StepDown(n, TallyVotes(results, n.currentTerm + 1).term)
    ensures n.role != Leader && TallyVotes(results, n.currentTerm + 1).Votes? ==>
      && r.currentTerm == n.currentTerm + 1
      && r.votedFor == Some(n.id)
      && (r.role == Leader <==> 1 + TallyVotes(results, n.currentTerm + 1).granted >= Majority(|n.config|))
      && (r.role != Leader ==> r.role == Candidate)
    ensures n.role != Leader && TallyVotes(results, n.currentTerm + 1).Votes? ==>
      r == if 1 + TallyVotes(results, n.currentTerm + 1).granted >= Majority(|n.config|)
           then BecomeLeader(Candidacy(n)) else Candidacy(n)
  {
    if n.role == Leader then n
    else
      var n1 := Candidacy(n);
      match TallyVotes(results, n1.currentTerm)
      case SawNewerTerm(t) => n1.(role := Follower, currentTerm := t, votedFor := None)
      case Votes(v) => if 1 + v >= Majority(|n1.config|) then BecomeLeader(n1) else n1
  }

  /** The number of heartbeat replies that carry the leader's own term. */
  function CountAlive(replies: seq<Option<nat>>, term: nat): nat {
    |set i | 0 <= i < |replies| && replies[i] == Some(term)|
  }

  /** check_leader_status with each follower's heartbeat reply term given in
      `replies` (None for a failed RPC): a leader that, counting itself, does
      not reach a majority of live replicas steps down to follower. Nothing
      else changes, and a newer term in a reply is not adopted here. */
  function CheckLeaderStatus(n: Node, replies: seq<Option<nat>>): (r: Node)
    ensures r == n.(role := r.role)
    ensures r.role == Follower <==> n.role == Follower || (n.role == Leader && 1 + CountAlive(replies, n.currentTerm) < Majority(|n.config|))
    ensures r.role != Follower ==> r.role == n.role
  {
    if n.role != Leader then n
    else if 1 + CountAlive(replies, n.currentTerm) < Majority(|n.config|) then n.(role := Follower)
    else n
  }

  /** When every reply carries the term, every reply counts as alive. */
  lemma {:induction false} AllAliveCount(replies: seq<Option<nat>>, term: nat)
    requires forall i :: 0 <= i < |replies| ==> replies[i] == Some(term)
    ensures CountAlive(replies, term) == |replies|
    decreases |replies|
  {
    if replies != [] {
      var prefix := replies[..|replies| - 1];
      AllAliveCount(prefix, term);
      assert (set i | 0 <= i < |replies| && replies[i] == Some(term))
        == (set i | 0 <= i < |prefix| && prefix[i] == Some(term)) + {|replies| - 1};
    }
  }

  /** A leader that hears its own term back from every other replica keeps
      leading. */
  lemma AllAliveKeepsLeader(n: Node, replies: seq<Option<nat>>)
    requires n.role == Leader
    requires |replies| + 1 == |n.config|
    requires forall i :: 0 <= i < |replies| ==> replies[i] == Some(n.currentTerm)
    ensures CheckLeaderStatus(n, replies).role == Leader
  {
    AllAliveCount(replies, n.currentTerm);
  }

  datatype ReplicateOutcome = ReplicateOutcome(node: Node, status: Option<int>)

  /** replicate_command: a non-leader refuses; the leader appends one entry of
      its current term, commits its whole log at once and applies it. The
      status is None when applying raised. Sending AppendEntries to the
      followers afterwards is network I/O and not part of this function. */
  function ReplicateCommand(n: Node, op: string, params: seq<string>, env: Env): (r: ReplicateOutcome)
    ensures n.role != Leader ==> r == ReplicateOutcome(n, Some(FAILURE))
    ensures n.role == Leader ==> r.node.log == n.log + [Entry(n.currentTerm, op, params)]
    ensures n.role == Leader ==> r.node.commitIndex == |n.log| + 1
    ensures n.role == Leader ==> r.node.currentTerm == n.currentTerm && r.node.votedFor == n.votedFor && r.node.role == Leader
    ensures n.role == Leader ==> (r.status.None? || r.status == Some(SUCCESS))
    ensures n.role == Leader && r.status.Some? && n.lastApplied <= |n.log| + 1 ==> r.node.lastApplied == |n.log| + 1
  {
    if n.role != Leader then ReplicateOutcome(n, Some(FAILURE))
    else
      var n1 := n.(log := n.log + [Entry(n.currentTerm, op, params)]);
      var n2 := n1.(commitIndex := |n1.log|);
      var applied := ApplyCommitted(n2, env);
      if applied.raised then ReplicateOutcome(applied.node, None)
      else ReplicateOutcome(applied.node, Some(SUCCESS))
  }

  datatype LeaderInfo = LeaderInfo(operation: int, info: seq<string>)

  /** RPCGetLeaderInfo: the leader answers SUCCESS with its own id; any other
      replica answers FAILURE with nothing. */
  function GetLeaderInfo(n: Node): (r: LeaderInfo)
    ensures r.operation == SUCCESS <==> n.role == Leader
    ensures n.role == Leader ==> r.info == [n.id]
    ensures n.role != Leader ==> r == LeaderInfo(FAILURE, [])
  {
    if n.role == Leader then LeaderInfo(SUCCESS, [n.id]) else LeaderInfo(FAILURE, [])
  }
}

=== FILE: posts.dfy ===
/** A blog post and its like list, which the source keeps as a Python list
    used as a duplicate-free set. */
module Posts {
  import opened Wrappers

  /** A comment on a post. Timestamps are kept as opaque strings. */
  datatype Comment = Comment(postId: string, email: string, text: string, timestamp: string)

  datatype Post = Post(
    author: string,
    title: string,
    content: string,
    timestamp: string,
    likes: seq<string>,
    postId: Option<string>,
    comments: seq<Comment>)

  /** No user appears twice in a like list. */
  predicate NoDuplicates(s: seq<string>) {
    forall i, j :: 0 <= i < j < |s| ==> s[i] != s[j]
  }

  /** The Post constructor: `likes` defaults to an empty list and `timestamp` to
      the current time `now`; a new post never has comments. */
  function NewPost(author: string, title: string, content: string, likes: Option<seq<string>>,
                   postId: Option<string>, timestamp: Option<string>, now: string): (p: Post)
    ensures p.comments == []
    ensures likes.None? ==> p.likes == []
    ensures likes.Some? ==> p.likes == likes.value
    ensures p.timestamp == (if timestamp.Some? then timestamp.value else now)
    ensures p.author == author && p.title == title && p.content == content && p.postId == postId
  {
    Post(author, title, content, timestamp.GetOr(now), likes.GetOr([]), postId, [])
  }

  /** The position `list.remove` deletes at: the first occurrence of `u`, and
      `|s|` when there is none. */
  function FirstIndex(s: seq<string>, u: string): (i: nat)
    ensures i <= |s|
    ensures i < |s| <==> u in s
    ensures i < |s| ==> s[i] == u
    ensures u !in s[..i]
  {
    if s == [] then 0
    else if s[0] == u then 0
    else
      assert s[1..][..FirstIndex(s[1..], u)] == s[1..FirstIndex(s[1..], u) + 1];
      1 + FirstIndex(s[1..], u)
  }

  /** The first like of a new post that was given no like list leaves exactly
      that user in it. */
  lemma NewPostFirstLike(author: string, title: string, content: string, postId: Option<string>,
                         timestamp: Option<string>, now: string, u: string)
    ensures
      var p := NewPost(author, title, content, None, postId, timestamp, now);
      Like(p.likes, u) == LikeResult([u], true)
  {
  }

  /** Python's `list.remove`: drops the first occurrence of `u`, if any, and
      keeps everything else in order. */
  function RemoveFirst(s: seq<string>, u: string): (r: seq<string>)
    ensures u !in s ==> r == s
    ensures u in s ==> r == s[..FirstIndex(s, u)] + s[FirstIndex(s, u) + 1..]
    ensures u in s ==> |r| == |s| - 1
    ensures multiset(r) == multiset(s) - multiset{u}
    ensures forall x :: x in r ==> x in s
  {
    var i := FirstIndex(s, u);
    if i == |s| then s
    else
      assert s == s[..i] + [u] + s[i + 1..];
      s[..i] + s[i + 1..]
  }

  /** Removing from a duplicate-free list removes the element entirely and
      keeps every other element. */
  lemma RemoveFirstNoDuplicates(s: seq<string>, u: string)
    requires NoDuplicates(s)
    ensures NoDuplicates(RemoveFirst(s, u))
    ensures u !in RemoveFirst(s, u)
    ensures forall x :: x != u ==> (x in RemoveFirst(s, u) <==> x in s)
  {
    var r := RemoveFirst(s, u);
    if u in s {
      var i := FirstIndex(s, u);
      forall a | 0 <= a < |r| ensures r[a] == s[if a < i then a else a + 1] {
      }
      forall a, b | 0 <= a < b < |r| ensures r[a] != r[b] {
        assert r[a] == s[if a < i then a else a + 1];
        assert r[b] == s[if b < i then b else b + 1];
      }
      forall a | 0 <= a < |r| ensures r[a] != u {
        assert r[a] == s[if a < i then a else a + 1];
      }
    }
    forall x | x != u ensures x in r <==> x in s {
      assert multiset(r)[x] == multiset(s)[x];
    }
  }

  /** Removing the element just appended to a list that did not hold it gives
      the list back. */
  lemma RemoveFirstAfterAppend(s: seq<string>, u: string)
    requires u !in s
    ensures RemoveFirst(s + [u], u) == s
  {
    assert (s + [u])[..|s|] == s;
  }

  /** The like list after a like/unlike and whether it changed. */
  datatype LikeResult = LikeResult(likes: seq<string>, changed: bool)

  /** Post.like: adds `u` at the end unless it is already there. */
  function Like(likes: seq<string>, u: string): (r: LikeResult)
    ensures r.changed <==> u !in likes
    ensures r.changed ==> r.likes == likes + [u]
    ensures !r.changed ==> r.likes == likes
    ensures u in r.likes
  {
    if u !in likes then LikeResult(likes + [u], true) else LikeResult(likes, false)
  }

  /** Post.unlike: removes `u` when it is there. */
  function Unlike(likes: seq<string>, u: string): (r: LikeResult)
    ensures r.changed <==> u in likes
    ensures !r.changed ==> r.likes == likes
    ensures r.changed ==> r.likes == RemoveFirst(likes, u)
    ensures r.changed ==> |r.likes| == |likes| - 1
    ensures multiset(r.likes) == multiset(likes) - multiset{u}
  {
    if u in likes then LikeResult(RemoveFirst(likes, u), true) else LikeResult(likes, false)
  }

  /** Like keeps the list duplicate-free and, read as a set, adds exactly `u`. */
  lemma LikeKeepsSet(likes: seq<string>, u: string)
    requires NoDuplicates(likes)
    ensures NoDuplicates(Like(likes, u).likes)
    ensures forall x :: x in Like(likes, u).likes <==> x in likes || x == u
  {
  }

  /** Unlike keeps the list duplicate-free and, read as a set, removes exactly `u`. */
  lemma UnlikeKeepsSet(likes: seq<string>, u: string)
    requires NoDuplicates(likes)
    ensures NoDuplicates(Unlike(likes, u).likes)
    ensures forall x :: x in Unlike(likes, u).likes <==> x in likes && x != u
  {
    RemoveFirstNoDuplicates(likes, u);
  }

  /** A like by a user who had not liked the post, undone by an unlike, leaves
      the like list as it was; both calls report a change. */
  lemma LikeThenUnlike(likes: seq<string>, u: string)
    requires u !in likes
    ensures Like(likes, u).changed && Unlike(Like(likes, u).likes, u).changed
    ensures Unlike(Like(likes, u).likes, u).likes == likes
  {
    RemoveFirstAfterAppend(likes, u);
  }
}

=== FILE: raft_log.dfy ===
/** The replicated Raft log of one replica: its entries, their dictionary form
    used for persistence, the last-index/last-term accessors, and the follower
    side of AppendEntries (receiver steps 2-4 of Figure 2 of the Raft paper). */
module RaftLog {
  import opened Wrappers

  /** A command together with the term in which the leader received it. */
  datatype Entry = Entry(term: nat, operation: string, params: seq<string>)

  type Log = seq<Entry>

  /** The JSON values an entry's dictionary form holds. */
  datatype Value = IntValue(i: int) | StrValue(s: string) | ListValue(items: seq<string>)

  type Dict = map<string, Value>

  const TermKey: string := "term"
  const OperationKey: string := "operation"
  const ParamsKey: string := "params"

  /** The dictionary form of an entry: exactly the three keys, each holding
      the matching field. */
  function ToDict(e: Entry): (d: Dict)
    ensures d.Keys == {TermKey, OperationKey, ParamsKey}
    ensures d[TermKey] == IntValue(e.term)
    ensures d[OperationKey] == StrValue(e.operation)
    ensures d[ParamsKey] == ListValue(e.params)
  {
    map[TermKey := IntValue(e.term), OperationKey := StrValue(e.operation), ParamsKey := ListValue(e.params)]
  }

  /** A dictionary the entry constructor can be rebuilt from: the three keys are
      present and hold values of the field types. */
  predicate WellFormedDict(d: Dict) {
    && TermKey in d && d[TermKey].IntValue? && d[TermKey].i >= 0
    && OperationKey in d && d[OperationKey].StrValue?
    && ParamsKey in d && d[ParamsKey].ListValue?
  }

  /** Rebuilds an entry from its dictionary form; a missing key (a KeyError in
      the source) or a value of the wrong type gives None. Extra keys are
      ignored. */
  function FromDict(d: Dict): (r: Option<Entry>)
    ensures r.Some? <==> WellFormedDict(d)
    ensures r.Some? ==> IntValue(r.value.term) == d[TermKey]
    ensures r.Some? ==> StrValue(r.value.operation) == d[OperationKey]
    ensures r.Some? ==> ListValue(r.value.params) == d[ParamsKey]
  {
    if WellFormedDict(d) then
      Some(Entry(d[TermKey].i, d[OperationKey].s, d[ParamsKey].items))
    else
      None
  }

  /** Decoding an encoded entry gives the entry back. */
  lemma FromDictToDict(e: Entry)
    ensures FromDict(ToDict(e)) == Some(e)
  {
  }

  /** Encoding a decoded dictionary gives back the dictionary restricted to the
      three entry keys: nothing of those keys is lost or altered. */
  lemma ToDictFromDict(d: Dict)
    requires WellFormedDict(d)
    ensures ToDict(FromDict(d).value) == map k | k in d && k in {TermKey, OperationKey, ParamsKey} :: d[k]
  {
  }

  /** The index of the last entry, 1-based; 0 for an empty log. */
  function LastLogIndex(log: Log): (r: nat)
    ensures r == |log|
  {
    |log|
  }

  /** The term of the last entry, or 0 for an empty log. */
  function LastLogTerm(log: Log): (r: nat)
    ensures |log| == 0 ==> r == 0
    ensures |log| > 0 ==> r == log[|log| - 1].term
  {
    if |log| == 0 then 0 else log[|log| - 1].term
  }

  /** Appending one entry moves the last index up by one and makes the entry's
      term the last term. */
  lemma LastLogAfterAppend(log: Log, e: Entry)
    ensures LastLogIndex(log + [e]) == LastLogIndex(log) + 1
    ensures LastLogTerm(log + [e]) == e.term
  {
  }

  /** No position of the existing log at or after `i` that a new entry would
      occupy holds a different term than that entry. Stated position by
      position, the way the merge loop walks; NoConflictAgrees gives the
      quantified reading. */
  ghost predicate NoConflict(log: Log, i: nat, entries: seq<Entry>)
    decreases |entries|
  {
    entries == [] || i >= |log| || (log[i].term == entries[0].term && NoConflict(log, i + 1, entries[1..]))
  }

  /** The new entry at offset `c` is the first whose term differs from the
      existing entry at the same position. */
  ghost predicate FirstConflictAt(log: Log, i: nat, entries: seq<Entry>, c: nat)
    decreases c
  {
    && c < |entries| && i + c < |log|
    && if c == 0 then log[i].term != entries[0].term
       else log[i].term == entries[0].term && FirstConflictAt(log, i + 1, entries[1..], c - 1)
  }

  /** NoConflict holds exactly when every overlapping position agrees on the
      term. */
  lemma {:induction false} NoConflictAgrees(log: Log, i: nat, entries: seq<Entry>)
    ensures NoConflict(log, i, entries) <==>
      forall j :: i <= j < |log| && j < i + |entries| ==> log[j].term == entries[j - i].term
    decreases |entries|
  {
    if entries != [] && i < |log| {
      NoConflictAgrees(log, i + 1, entries[1..]);
      if NoConflict(log, i, entries) {
        forall j | i <= j < |log| && j < i + |entries|
          ensures log[j].term == entries[j - i].term
        {
          if j > i {
            assert entries[1..][j - (i + 1)] == entries[j - i];
          }
        }
      } else if log[i].term == entries[0].term {
        var j :| i + 1 <= j < |log| && j < i + 1 + |entries[1..]| && log[j].term != entries[1..][j - (i + 1)].term;
        assert entries[1..][j - (i + 1)] == entries[j - i];
      }
    }
  }

  /** `after` is `before` with `entries` written from position `i` on: the
      prefix before `i` is kept, and every new entry's term sits at its
      position. */
  predicate Merged(before: Log, after: Log, i: nat, entries: seq<Entry>) {
    && i <= |before| && |after| >= i + |entries|
    && after[..i] == before[..i]
    && forall k :: 0 <= k < |entries| ==> after[i + k].term == entries[k].term
  }

  /** The entry-by-entry loop of append_entries_to_log: at each position from
      `i` on, an existing entry of the same term is kept, one of a different
      term cuts the log there and is replaced, and a position past the end is
      appended to. */
  function MergeEntries(log: Log, i: nat, entries: seq<Entry>): (r: Log)
    requires i <= |log|
    ensures |r| >= i + |entries|
    ensures r[..i] == log[..i]
    ensures forall k :: 0 <= k < |entries| ==> r[i + k].term == entries[k].term
    decreases |entries|
  {
    if entries == [] then log
    else
      var next := MergeStep(log, i, entries[0]);
      var r := MergeEntries(next, i + 1, entries[1..]);
      assert r[..i] == r[..i + 1][..i];
      r
  }

  /** One iteration of that loop, at position `i` with new entry `e`. */
  function MergeStep(log: Log, i: nat, e: Entry): (next: Log)
    requires i <= |log|
    ensures |next| >= i + 1
    ensures next[..i] == log[..i]
    ensures next[i] == (if i < |log| && log[i].term == e.term then log[i] else e)
  {
    if i < |log| then
      (if log[i].term != e.term then log[..i] + [e] else log)
    else log + [e]
  }

  /** Without a conflict nothing is deleted: the log is kept and only the new
      entries beyond its end are appended. */
  lemma {:induction false} MergeWithoutConflict(log: Log, i: nat, entries: seq<Entry>)
    requires i <= |log|
    requires NoConflict(log, i, entries)
    ensures i + |entries| <= |log| ==> MergeEntries(log, i, entries) == log
    ensures i + |entries| > |log| ==> MergeEntries(log, i, entries) == log + entries[|log| - i..]
    decreases |entries|
  {
    if entries != [] {
      MergeUnfold(log, i, entries);
      if i < |log| {
        assert MergeStep(log, i, entries[0]) == log;
        MergeWithoutConflict(log, i + 1, entries[1..]);
        if i + |entries| > |log| {
          DropAfterTail(entries, |log| - i);
        }
      } else {
        var next := log + [entries[0]];
        assert MergeStep(log, i, entries[0]) == next;
        MergeWithoutConflict(next, i + 1, entries[1..]);
        assert entries[1..][|next| - (i + 1)..] == entries[1..];
        HeadThenTail(log, entries);
        assert entries[|log| - i..] == entries;
      }
    }
  }

  /** A conflict truncates: everything from the first conflicting position on
      is dropped and replaced by the remaining new entries. */
  lemma {:induction false} MergeWithConflict(log: Log, i: nat, entries: seq<Entry>, c: nat)
    requires i <= |log|
    requires FirstConflictAt(log, i, entries, c)
    ensures MergeEntries(log, i, entries) == log[..i + c] + entries[c..]
    decreases |entries|, 1
  {
    if c == 0 {
      ConflictHere(log, i, entries);
      assert log[..i + c] == log[..i] && entries[c..] == entries;
    } else {
      ConflictFurther(log, i, entries, c);
    }
  }

  /** The inductive step of MergeWithConflict: a conflict beyond the first
      new entry. */
  lemma {:induction false} ConflictFurther(log: Log, i: nat, entries: seq<Entry>, c: nat)
    requires i <= |log| && 0 < c
    requires FirstConflictAt(log, i, entries, c)
    ensures MergeEntries(log, i, entries) == log[..i + c] + entries[c..]
    decreases |entries|, 0
  {
    ConflictLater(log, i, entries, c);
    var rest := entries[1..];
    MergeWithConflict(log, i + 1, rest, c - 1);
    DropAfterTail(entries, c);
    assert log[..(i + 1) + (c - 1)] == log[..i + c];
  }

  /** The conflict is at the first new entry: the log is cut at `i`. */
  lemma {:induction false} ConflictHere(log: Log, i: nat, entries: seq<Entry>)
    requires i < |log| && entries != []
    requires log[i].term != entries[0].term
    ensures MergeEntries(log, i, entries) == log[..i] + entries
  {
    var next := log[..i] + [entries[0]];
    MergeUnfold(log, i, entries);
    assert MergeStep(log, i, entries[0]) == next;
    AppendPastEnd(next, i + 1, entries[1..]);
    HeadThenTail(log[..i], entries);
  }

  /** Dropping `c - 1` entries after the first is dropping `c`. */
  lemma DropAfterTail(entries: seq<Entry>, c: nat)
    requires 0 < c <= |entries|
    ensures entries[1..][c - 1..] == entries[c..]
  {
  }

  /** Appending the first entry and then the rest appends them all. */
  lemma HeadThenTail(prefix: Log, entries: seq<Entry>)
    requires entries != []
    ensures (prefix + [entries[0]]) + entries[1..] == prefix + entries
  {
    assert [entries[0]] + entries[1..] == entries;
  }

  /** One iteration of the merge loop, as an equation. */
  lemma {:induction false} MergeUnfold(log: Log, i: nat, entries: seq<Entry>)
    requires i <= |log| && entries != []
    ensures MergeEntries(log, i, entries) == MergeEntries(MergeStep(log, i, entries[0]), i + 1, entries[1..])
  {
  }

  /** Merging at the end of the log appends all new entries. */
  lemma {:induction false} AppendPastEnd(log: Log, i: nat, entries: seq<Entry>)
    requires i == |log|
    ensures MergeEntries(log, i, entries) == log + entries
  {
    MergeWithoutConflict(log, i, entries);
    assert entries[|log| - i..] == entries;
  }

  /** The conflict lies further on: the first entry is kept and the conflict
      moves one offset closer. */
  lemma {:induction false} ConflictLater(log: Log, i: nat, entries: seq<Entry>, c: nat)
    requires i <= |log| && 0 < c
    requires FirstConflictAt(log, i, entries, c)
    ensures MergeStep(log, i, entries[0]) == log
    ensures MergeEntries(log, i, entries) == MergeEntries(log, i + 1, entries[1..])
    ensures FirstConflictAt(log, i + 1, entries[1..], c - 1)
  {
    assert MergeStep(log, i, entries[0]) == log;
  }

  /** The outcome of append_entries_to_log: the returned flag and the log the
      replica holds afterwards. */
  datatype AppendResult = AppendResult(success: bool, log: Log)

  /** append_entries_to_log as the source writes it. With prevLogIndex 0 it
      compares only the first entry's term and then appends all new entries
      after the WHOLE existing log. */
  function AppendEntriesToLogAsWritten(log: Log, prevLogIndex: nat, prevLogTerm: nat, entries: seq<Entry>): (r: AppendResult)
    ensures prevLogIndex == 0 ==> r.success
    ensures entries == [] ==> r.log == log
    ensures prevLogIndex > 0 ==> r == AppendEntriesToLog(log, prevLogIndex, prevLogTerm, entries)
  {
    if prevLogIndex == 0 then
      if |entries| > 0 then
        var kept := if |log| > 0 && log[0].term != entries[0].term then [] else log;
        AppendResult(true, kept + entries)
      else
        AppendResult(true, log)
    else if prevLogIndex > |log| then
      AppendResult(false, log)
    else if log[prevLogIndex - 1].term != prevLogTerm then
      AppendResult(false, log)
    else
      AppendResult(true, MergeEntries(log, prevLogIndex, entries))
  }

  /** With prevLogIndex 0 and a first entry whose term matches, the source
      appends after the existing log: a two-entry log [t1, t2] receiving
      [t1, t3] becomes [t1, t2, t1, t3], so position 1 holds term 2 where the
      leader sent term 3. */
  lemma AsWrittenBreaksLogMatching()
    ensures
      var log := [Entry(1, "SUBSCRIBE", ["a@x.io"]), Entry(2, "SUBSCRIBE", ["b@x.io"])];
      var entries := [Entry(1, "SUBSCRIBE", ["a@x.io"]), Entry(3, "SUBSCRIBE", ["c@x.io"])];
      var r := AppendEntriesToLogAsWritten(log, 0, 0, entries);
      r.success && |r.log| == 4 && r.log[1].term == 2 && entries[1].term == 3
  {
  }

  /** append_entries_to_log with the prevLogIndex 0 case handled by the same
      entry-by-entry merge as every other index, which is what the Raft
      receiver rules ask for. */
  function AppendEntriesToLog(log: Log, prevLogIndex: nat, prevLogTerm: nat, entries: seq<Entry>): (r: AppendResult)
    ensures r.success <==> prevLogIndex == 0 || (prevLogIndex <= |log| && log[prevLogIndex - 1].term == prevLogTerm)
    ensures !r.success ==> r.log == log
    ensures r.success ==> Merged(log, r.log, prevLogIndex, entries)
    ensures entries == [] ==> r.log == log
  {
    if prevLogIndex > |log| then
      AppendResult(false, log)
    else if prevLogIndex > 0 && log[prevLogIndex - 1].term != prevLogTerm then
      AppendResult(false, log)
    else
      AppendResult(true, MergeEntries(log, prevLogIndex, entries))
  }
}

=== FILE: raft_rpc.dfy ===
/** The follower-side Raft RPC handlers of the server: RequestVote
    (sections 5.2 and 5.4.1 of the Raft paper) and AppendEntries (sections 5.3
    and 5.4). Each is a function of the replica state and the request. */
module RaftRpc {
  import opened Wrappers
  import opened RaftLog
  import opened ReplicaState
  import Blog

  datatype VoteRequest = VoteRequest(term: nat, candidateId: string, lastLogIndex: nat, lastLogTerm: nat)
  datatype VoteReply = VoteReply(term: nat, voteGranted: bool)
  datatype VoteOutcome = VoteOutcome(node: Node, reply: VoteReply)

  /** The election restriction: a candidate's log, given by its last term and
      last index, is at least as up to date as `log` when its last term is
      later, or equal with an index at least as large. */
  predicate AtLeastAsUpToDate(lastLogTerm: nat, lastLogIndex: nat, log: Log) {
    || lastLogTerm > LastLogTerm(log)
    || (lastLogTerm == LastLogTerm(log) && lastLogIndex >= LastLogIndex(log))
  }

  /** A candidate holding exactly our log qualifies, and so does one holding
      our log with more entries appended. */
  lemma UpToDateOfExtension(log: Log, more: Log)
    requires forall k :: 0 <= k < |more| ==> more[k].term >= LastLogTerm(log)
    ensures AtLeastAsUpToDate(LastLogTerm(log + more), LastLogIndex(log + more), log)
  {
    if more != [] {
      assert (log + more)[|log + more| - 1] == more[|more| - 1];
    } else {
      assert log + more == log;
    }
  }

  /** The only fields a vote or a new term may change. */
  predicate SameExceptVote(n: Node, m: Node) {
    m == n.(currentTerm := m.currentTerm, votedFor := m.votedFor, role := m.role)
  }

  /** The RequestVote handler. */
  function RequestVote(n: Node, req: VoteRequest): (r: VoteOutcome)
    ensures req.term < n.currentTerm ==> r == VoteOutcome(n, VoteReply(n.currentTerm, false))
    ensures SameExceptVote(n, r.node)
    ensures req.term >= n.currentTerm ==> r.node.currentTerm == req.term
    ensures r.reply.term == r.node.currentTerm
    ensures req.term > n.currentTerm ==> r.node.role == Follower
    ensures req.term <= n.currentTerm ==> r.node.role == n.role
    ensures r.reply.voteGranted <==>
      && req.term >= n.currentTerm
      && (req.term > n.currentTerm || n.votedFor.None? || n.votedFor == Some(req.candidateId))
      && AtLeastAsUpToDate(req.lastLogTerm, req.lastLogIndex, n.log)
    ensures r.reply.voteGranted ==> r.node.votedFor == Some(req.candidateId)
    ensures !r.reply.voteGranted && req.term > n.currentTerm ==> r.node.votedFor.None?
    ensures !r.reply.voteGranted && req.term <= n.currentTerm ==> r.node.votedFor == n.votedFor
  {
    if req.term < n.currentTerm then
      VoteOutcome(n, VoteReply(n.currentTerm, false))
    else
      var n1 := if req.term > n.currentTerm then n.(currentTerm := req.term, votedFor := None, role := Follower) else n;
      var alreadyVoted := n1.votedFor.Some? && n1.votedFor != Some(req.candidateId);
      if !alreadyVoted && AtLeastAsUpToDate(req.lastLogTerm, req.lastLogIndex, n1.log) then
        VoteOutcome(n1.(votedFor := Some(req.candidateId)), VoteReply(n1.currentTerm, true))
      else
        VoteOutcome(n1, VoteReply(n1.currentTerm, false))
  }

  datatype AppendRequest = AppendRequest(
    term: nat,
    leaderId: string,
    prevLogIndex: nat,
    prevLogTerm: nat,
    entries: seq<Entry>,
    leaderCommit: nat)

  datatype AppendReply = AppendReply(term: nat, success: bool)

  /** The state after AppendEntries and its reply; no reply when applying the
      newly committed entries raised. */
  datatype AppendOutcome = AppendOutcome(node: Node, reply: Option<AppendReply>)

  /** `c` is the smaller of `a` and `b`. */
  predicate IsMin(c: nat, a: nat, b: nat) {
    c <= a && c <= b && (c == a || c == b)
  }

  /** The follower's commit rule as the source writes it: when leaderCommit is
      ahead, commitIndex becomes min(leaderCommit, length of the log), even
      when that is below the current commitIndex. */
  function FollowerCommitAsWritten(commitIndex: nat, leaderCommit: nat, logLength: nat): (c: nat)
    ensures leaderCommit <= commitIndex ==> c == commitIndex
    ensures leaderCommit > commitIndex ==> IsMin(c, leaderCommit, logLength)
    ensures c < commitIndex <==> leaderCommit > commitIndex && logLength < commitIndex
  {
    if leaderCommit > commitIndex then
      if leaderCommit < logLength then leaderCommit else logLength
    else commitIndex
  }

  /** When the log is shorter than commitIndex, the rule as written moves
      commitIndex backwards, where the corrected rule keeps it. */
  lemma FollowerCommitAsWrittenRegresses()
    ensures FollowerCommitAsWritten(3, 5, 1) == 1
    ensures FollowerCommit(3, 5, 1) == 3
  {
  }

  /** The follower's commit rule with commitIndex kept when the log is too
      short to move it forward: min(leaderCommit, length of the log) is taken
      only when it is larger than the current commitIndex, which is the case
      the source's `commit_index_changed` test expects. */
  function FollowerCommit(commitIndex: nat, leaderCommit: nat, logLength: nat): (c: nat)
    ensures c >= commitIndex
    ensures c <= if leaderCommit > commitIndex then leaderCommit else commitIndex
    ensures c > commitIndex ==> c <= logLength
    ensures c > commitIndex <==> leaderCommit > commitIndex && logLength > commitIndex
    ensures c > commitIndex ==> c == FollowerCommitAsWritten(commitIndex, leaderCommit, logLength)
  {
    var proposed := FollowerCommitAsWritten(commitIndex, leaderCommit, logLength);
    if proposed > commitIndex then proposed else commitIndex
  }

  /** Whether the follower's log accepts a request: the overwrite case
      prevLogIndex 0, or an entry at prevLogIndex with term prevLogTerm. */
  predicate LogAccepts(log: Log, req: AppendRequest) {
    req.prevLogIndex == 0 || (req.prevLogIndex <= |log| && log[req.prevLogIndex - 1].term == req.prevLogTerm)
  }

  /** The AppendEntries handler as the source writes it. With prevLogIndex 0
      the follower's log is replaced by the request's entries; otherwise
      append_entries_to_log merges them. An accepted request whose
      leaderCommit is ahead sets commitIndex to min(leaderCommit, length of
      the log), and the entries are applied only when that raised it. */
  function AppendEntries(n: Node, req: AppendRequest, env: Env): (r: AppendOutcome)
    ensures req.term < n.currentTerm ==> r == AppendOutcome(n, Some(AppendReply(n.currentTerm, false)))
    ensures req.term >= n.currentTerm ==> r.node.currentTerm == req.term
    ensures req.term > n.currentTerm ==> r.node.role == Follower && r.node.votedFor.None?
    ensures req.term <= n.currentTerm ==> r.node.role == n.role && r.node.votedFor == n.votedFor
    ensures r.node.id == n.id
    ensures r.reply.Some? ==> r.reply.value.term == r.node.currentTerm
    ensures (r.reply.None? || r.reply.value.success) <==> req.term >= n.currentTerm && LogAccepts(n.log, req)
    ensures !(req.term >= n.currentTerm && LogAccepts(n.log, req)) ==>
      r.node == n.(currentTerm := r.node.currentTerm, votedFor := r.node.votedFor, role := r.node.role)
    ensures req.term >= n.currentTerm && req.prevLogIndex == 0 ==> r.node.log == req.entries
    ensures req.term >= n.currentTerm && LogAccepts(n.log, req) && req.prevLogIndex > 0 ==>
      Merged(n.log, r.node.log, req.prevLogIndex, req.entries)
    ensures req.term >= n.currentTerm && LogAccepts(n.log, req) && req.leaderCommit > n.commitIndex ==>
      IsMin(r.node.commitIndex, req.leaderCommit, |r.node.log|)
    ensures req.leaderCommit <= n.commitIndex ==> r.node.commitIndex == n.commitIndex
    ensures |r.node.log| >= n.commitIndex ==> r.node.commitIndex >= n.commitIndex
    ensures r.reply.Some? && r.node.commitIndex > n.commitIndex && n.lastApplied <= n.commitIndex ==>
      r.node.lastApplied == r.node.commitIndex
    ensures r.node.commitIndex <= n.commitIndex ==> r.node.lastApplied == n.lastApplied
    ensures req.term >= n.currentTerm && LogAccepts(n.log, req) && r.node.commitIndex <= n.commitIndex ==>
      r.node == n.(currentTerm := req.term, votedFor := r.node.votedFor, role := r.node.role,
                   log := r.node.log, commitIndex := r.node.commitIndex)
    ensures req.term >= n.currentTerm && LogAccepts(n.log, req) && r.node.commitIndex > n.commitIndex ==>
      Applied(r.node, r.reply.None?) ==
        ApplyCommitted(n.(currentTerm := req.term, votedFor := r.node.votedFor, role := r.node.role,
                          log := r.node.log, commitIndex := r.node.commitIndex), env)
  {
    if req.term < n.currentTerm then
      AppendOutcome(n, Some(AppendReply(n.currentTerm, false)))
    else if req.term > n.currentTerm then
      AcceptInTerm(n.(role := Follower, currentTerm := req.term, votedFor := None), req, env, false)
    else
      AcceptInTerm(n, req, env, false)
  }

  /** The AppendEntries handler with the corrected commit rule: the same
      handler, except that commitIndex never moves backwards. */
  function AppendEntriesCorrected(n: Node, req: AppendRequest, env: Env): (r: AppendOutcome)
    ensures (r.reply.None? || r.reply.value.success) <==> req.term >= n.currentTerm && LogAccepts(n.log, req)
    ensures r.node.commitIndex >= n.commitIndex
    ensures r.node.commitIndex <= if req.leaderCommit > n.commitIndex then req.leaderCommit else n.commitIndex
    ensures r.node.commitIndex > n.commitIndex ==> r.node.commitIndex <= |r.node.log|
    ensures req.term >= n.currentTerm && LogAccepts(n.log, req) && req.leaderCommit > n.commitIndex && |r.node.log| > n.commitIndex ==>
      IsMin(r.node.commitIndex, req.leaderCommit, |r.node.log|)
    ensures r.reply.Some? && r.node.commitIndex > n.commitIndex && n.lastApplied <= n.commitIndex ==>
      r.node.lastApplied == r.node.commitIndex
    ensures req.term >= n.currentTerm && LogAccepts(n.log, req) && r.node.commitIndex <= n.commitIndex ==>
      r.node == n.(currentTerm := req.term, votedFor := r.node.votedFor, role := r.node.role,
                   log := r.node.log, commitIndex := r.node.commitIndex)
    ensures req.term >= n.currentTerm && LogAccepts(n.log, req) && r.node.commitIndex > n.commitIndex ==>
      Applied(r.node, r.reply.None?) ==
        ApplyCommitted(n.(currentTerm := req.term, votedFor := r.node.votedFor, role := r.node.role,
                          log := r.node.log, commitIndex := r.node.commitIndex), env)
  {
    if req.term < n.currentTerm then
      AppendOutcome(n, Some(AppendReply(n.currentTerm, false)))
    else if req.term > n.currentTerm then
      AcceptInTerm(n.(role := Follower, currentTerm := req.term, votedFor := None), req, env, true)
    else
      AcceptInTerm(n, req, env, true)
  }

  /** AppendEntries once the request's term is the replica's own: the log
      check, the merge, the commit rule (the source's, or the corrected one
      when `corrected` holds) and applying what became committed when
      commitIndex rose. Term, vote and role are left as they are. */
  function AcceptInTerm(n: Node, req: AppendRequest, env: Env, corrected: bool): (r: AppendOutcome)
    requires req.term == n.currentTerm
    ensures r.node.id == n.id && r.node.currentTerm == n.currentTerm
    ensures r.node.role == n.role && r.node.votedFor == n.votedFor
    ensures r.reply.Some? ==> r.reply.value.term == n.currentTerm
    ensures (r.reply.None? || r.reply.value.success) <==> LogAccepts(n.log, req)
    ensures !LogAccepts(n.log, req) ==> r.node == n
    ensures req.prevLogIndex == 0 ==> r.node.log == req.entries
    ensures LogAccepts(n.log, req) && req.prevLogIndex > 0 ==> Merged(n.log, r.node.log, req.prevLogIndex, req.entries)
    ensures !corrected && LogAccepts(n.log, req) && req.leaderCommit > n.commitIndex ==>
      IsMin(r.node.commitIndex, req.leaderCommit, |r.node.log|)
    ensures corrected ==> r.node.commitIndex >= n.commitIndex
    ensures LogAccepts(n.log, req) && req.leaderCommit > n.commitIndex && |r.node.log| > n.commitIndex ==>
      IsMin(r.node.commitIndex, req.leaderCommit, |r.node.log|)
    ensures req.leaderCommit <= n.commitIndex ==> r.node.commitIndex == n.commitIndex
    ensures |r.node.log| >= n.commitIndex ==> r.node.commitIndex >= n.commitIndex
    ensures r.node.commitIndex <= if req.leaderCommit > n.commitIndex then req.leaderCommit else n.commitIndex
    ensures r.node.commitIndex > n.commitIndex ==> r.node.commitIndex <= |r.node.log|
    ensures r.reply.Some? && r.node.commitIndex > n.commitIndex && n.lastApplied <= n.commitIndex ==>
      r.node.lastApplied == r.node.commitIndex
    ensures r.node.commitIndex <= n.commitIndex ==> r.node.lastApplied == n.lastApplied
    ensures LogAccepts(n.log, req) && r.node.commitIndex <= n.commitIndex ==>
      r.node == n.(log := r.node.log, commitIndex := r.node.commitIndex)
    ensures LogAccepts(n.log, req) && r.node.commitIndex > n.commitIndex ==>
      Applied(r.node, r.reply.None?) == ApplyCommitted(n.(log := r.node.log, commitIndex := r.node.commitIndex), env)
  {
    var appended :=
      if req.prevLogIndex == 0 then AppendResult(true, req.entries)
      else AppendEntriesToLog(n.log, req.prevLogIndex, req.prevLogTerm, req.entries);
    var n2 := n.(log := appended.log);
    if !appended.success then
      AppendOutcome(n2, Some(AppendReply(n2.currentTerm, false)))
    else
      var commit :=
        if corrected then FollowerCommit(n2.commitIndex, req.leaderCommit, |n2.log|)
        else FollowerCommitAsWritten(n2.commitIndex, req.leaderCommit, |n2.log|);
      var n3 := n2.(commitIndex := commit);
      if commit > n2.commitIndex then
        var applied := ApplyCommitted(n3, env);
        if applied.raised then AppendOutcome(applied.node, None)
        else AppendOutcome(applied.node, Some(AppendReply(n3.currentTerm, true)))
      else
        AppendOutcome(n3, Some(AppendReply(n3.currentTerm, true)))
  }

  /** The two handlers differ only where the source's rule moves commitIndex
      backwards, and there only in commitIndex, which the corrected handler
      keeps. */
  lemma CorrectedDiffersOnlyInCommit(n: Node, req: AppendRequest, env: Env)
    ensures AppendEntries(n, req, env).node.commitIndex >= n.commitIndex ==>
      AppendEntriesCorrected(n, req, env) == AppendEntries(n, req, env)
    ensures AppendEntries(n, req, env).node.commitIndex < n.commitIndex ==>
      AppendEntriesCorrected(n, req, env) ==
        AppendEntries(n, req, env).(node := AppendEntries(n, req, env).node.(commitIndex := n.commitIndex))
  {
    if req.term > n.currentTerm {
      AcceptCorrectedDiffersOnlyInCommit(n.(role := Follower, currentTerm := req.term, votedFor := None), req, env);
    } else if req.term == n.currentTerm {
      AcceptCorrectedDiffersOnlyInCommit(n, req, env);
    }
  }

  lemma AcceptCorrectedDiffersOnlyInCommit(n: Node, req: AppendRequest, env: Env)
    requires req.term == n.currentTerm
    ensures AcceptInTerm(n, req, env, false).node.commitIndex >= n.commitIndex ==>
      AcceptInTerm(n, req, env, true) == AcceptInTerm(n, req, env, false)
    ensures AcceptInTerm(n, req, env, false).node.commitIndex < n.commitIndex ==>
      AcceptInTerm(n, req, env, true) ==
        AcceptInTerm(n, req, env, false).(node := AcceptInTerm(n, req, env, false).node.(commitIndex := n.commitIndex))
  {
  }

  /** The source's handler lowers commitIndex: a follower in term 1 with three
      committed and applied entries receives, in term 1, prevLogIndex 0, one
      entry and leaderCommit 5. Its log is replaced by that one entry and its
      commitIndex drops from 3 to 1, below lastApplied; the corrected handler
      keeps 3. */
  lemma AppendEntriesLowersCommit(env: Env)
    ensures
      var e := Entry(1, "SUBSCRIBE", ["a@x.io"]);
      var n := Node("r2", [], 1, None, [e, e, e], 3, 3, map[], map[], Follower, Blog.Db(map[], map[], map[]));
      var req := AppendRequest(1, "r1", 0, 0, [e], 5);
      && AppendEntries(n, req, env).node.commitIndex == 1
      && AppendEntries(n, req, env).node.lastApplied == 3
      && AppendEntriesCorrected(n, req, env).node.commitIndex == 3
  {
  }
}

=== FILE: replica_state.dfy ===
/** The state of one replica server: the Raft fields of RaftNode, the cluster
    configuration, the blog database, and the application of committed log
    entries to that database (apply_committed_entries and
    apply_blog_operation). */
module ReplicaState {
  import opened Wrappers
  import opened RaftLog
  import opened Blog

  /** The status codes the server returns. */
  const SUCCESS: int := 0
  const FAILURE: int := 1

  const AddReplicaOp: string := "ADD_REPLICA"
  const RemoveReplicaOp: string := "REMOVE_REPLICA"

  datatype Role = Follower | Candidate | Leader

  /** One entry of the cluster configuration. */
  datatype ReplicaConfig = ReplicaConfig(id: string, host: string, port: int)

  /** One replica: its own id and view of the cluster, the Raft state, and the
      blog database it applies committed commands to. Log indices are 1-based:
      entry `k` is `log[k - 1]`. */
  datatype Node = Node(
    id: string,
    config: seq<ReplicaConfig>,
    currentTerm: nat,
    votedFor: Option<string>,
    log: Log,
    commitIndex: nat,
    lastApplied: nat,
    nextIndex: map<string, nat>,
    matchIndex: map<string, nat>,
    role: Role,
    db: Db)

  /** What the state machine reads from outside the replica: the clock, used
      as a new comment's timestamp, and the JSON decoder of a replica config,
      None when decoding fails or the `id` key is missing. */
  datatype Env = Env(now: string, parseConfig: string -> Option<ReplicaConfig>)

  /** The vote or acknowledgement count that wins among `clusterSize` replicas. */
  function Majority(clusterSize: nat): (m: nat)
    ensures 2 * m > clusterSize
    ensures 2 * (m - 1) <= clusterSize
  {
    clusterSize / 2 + 1
  }

  /** The ids of the other replicas in the configuration. */
  function PeerIds(n: Node): set<string> {
    set c | c in n.config && c.id != n.id :: c.id
  }

  /** The Raft fields that applying a committed entry never touches. */
  predicate SameRaftCore(n: Node, m: Node) {
    && m.id == n.id && m.currentTerm == n.currentTerm && m.votedFor == n.votedFor
    && m.log == n.log && m.commitIndex == n.commitIndex && m.lastApplied == n.lastApplied
    && m.role == n.role
  }

  /** The configuration without the replicas named `rid`, in the same order. */
  function WithoutReplica(config: seq<ReplicaConfig>, rid: string): (r: seq<ReplicaConfig>)
    ensures forall c :: c in r <==> c in config && c.id != rid
    ensures |r| <= |config|
  {
    if config == [] then []
    else if config[0].id == rid then WithoutReplica(config[1..], rid)
    else [config[0]] + WithoutReplica(config[1..], rid)
  }

  /** Every replica not named `rid` keeps its number of occurrences; those
      named `rid` have none left. */
  lemma {:induction false} WithoutReplicaCounts(config: seq<ReplicaConfig>, rid: string)
    ensures forall c :: multiset(WithoutReplica(config, rid))[c] == if c.id == rid then 0 else multiset(config)[c]
  {
    if config != [] {
      WithoutReplicaCounts(config[1..], rid);
      assert config == [config[0]] + config[1..];
    }
  }

  /** Filtering a concatenation filters each part: the kept replicas stay in
      their original order. */
  lemma {:induction false} WithoutReplicaConcat(a: seq<ReplicaConfig>, b: seq<ReplicaConfig>, rid: string)
    ensures WithoutReplica(a + b, rid) == WithoutReplica(a, rid) + WithoutReplica(b, rid)
  {
    if a != [] {
      assert (a + b)[0] == a[0] && (a + b)[1..] == a[1..] + b;
      var x, y := WithoutReplica(a[1..], rid), WithoutReplica(b, rid);
      WithoutReplicaConcat(a[1..], b, rid);
      if a[0].id != rid {
        assert WithoutReplica(a + b, rid) == [a[0]] + (x + y);
        assert WithoutReplica(a, rid) == [a[0]] + x;
        assert [a[0]] + (x + y) == ([a[0]] + x) + y;
      } else {
        assert WithoutReplica(a + b, rid) == x + y;
        assert WithoutReplica(a, rid) == x;
      }
    } else {
      assert a + b == b;
    }
  }

  /** add_replica_local without the file write: the configuration gains the
      replica unless one with its id is already there, and the leader
      bookkeeping for it restarts at the end of the log. */
  function AddReplica(n: Node, cfg: ReplicaConfig): (r: Node)
    ensures SameRaftCore(n, r) && r.db == n.db
    ensures exists c :: c in r.config && c.id == cfg.id
    ensures (exists c :: c in n.config && c.id == cfg.id) ==> r.config == n.config
    ensures !(exists c :: c in n.config && c.id == cfg.id) ==> r.config == n.config + [cfg]
    ensures forall c :: c in n.config ==> c in r.config
    ensures |r.config| <= |n.config| + 1
    ensures r.nextIndex == n.nextIndex[cfg.id := |n.log| + 1]
    ensures r.matchIndex == n.matchIndex[cfg.id := 0]
  {
    var found := exists c :: c in n.config && c.id == cfg.id;
    n.(config := if found then n.config else n.config + [cfg],
       nextIndex := n.nextIndex[cfg.id := |n.log| + 1],
       matchIndex := n.matchIndex[cfg.id := 0])
  }

  /** remove_replica_local without the file write. */
  function RemoveReplica(n: Node, rid: string): (r: Node)
    ensures SameRaftCore(n, r) && r.db == n.db
    ensures r.config == WithoutReplica(n.config, rid)
    ensures forall c :: c in r.config <==> c in n.config && c.id != rid
    ensures r.nextIndex.Keys == n.nextIndex.Keys - {rid} && r.matchIndex.Keys == n.matchIndex.Keys - {rid}
    ensures forall k :: k in r.nextIndex ==> r.nextIndex[k] == n.nextIndex[k]
    ensures forall k :: k in r.matchIndex ==> r.matchIndex[k] == n.matchIndex[k]
  {
    n.(config := WithoutReplica(n.config, rid), nextIndex := n.nextIndex - {rid}, matchIndex := n.matchIndex - {rid})
  }

  /** apply_blog_operation for one committed entry: None when the source raises
      (a membership command without a parameter or with an undecodable config,
      or a blog command the blog state machine rejects). */
  function ApplyEntry(n: Node, e: Entry, env: Env): (r: Option<Node>)
    ensures r.Some? ==> SameRaftCore(n, r.value)
    ensures e.operation != AddReplicaOp && e.operation != RemoveReplicaOp ==>
      (r.None? <==> Raises(n.db, e.operation, e.params))
    ensures !IsBlogOp(e.operation) && e.operation != AddReplicaOp && e.operation != RemoveReplicaOp ==> r == Some(n)
    ensures e.operation != AddReplicaOp && e.operation != RemoveReplicaOp && r.Some? ==>
      r.value == n.(db := ApplyBlogOp(n.db, e.operation, e.params, env.now).value)
    ensures e.operation == RemoveReplicaOp ==> (r.Some? <==> |e.params| > 0)
    ensures e.operation == RemoveReplicaOp && |e.params| > 0 ==> r == Some(RemoveReplica(n, e.params[0]))
    ensures e.operation == AddReplicaOp ==> (r.Some? <==> |e.params| > 0 && env.parseConfig(e.params[0]).Some?)
    ensures e.operation == AddReplicaOp && r.Some? ==> r.value == AddReplica(n, env.parseConfig(e.params[0]).value)
  {
    if e.operation == AddReplicaOp then
      if |e.params| == 0 then None
      else
        match env.parseConfig(e.params[0])
        case None => None
        case Some(cfg) => Some(AddReplica(n, cfg))
    else if e.operation == RemoveReplicaOp then
      if |e.params| == 0 then None else Some(RemoveReplica(n, e.params[0]))
    else
      match ApplyBlogOp(n.db, e.operation, e.params, env.now)
      case None => None
      case Some(db) => Some(n.(db := db))
  }

  /** Applying an entry neither reads nor writes lastApplied. */
  lemma ApplyEntryIgnoresLastApplied(n: Node, e: Entry, env: Env, x: nat)
    ensures ApplyEntry(n.(lastApplied := x), e, env).Some? <==> ApplyEntry(n, e, env).Some?
    ensures ApplyEntry(n, e, env).Some? ==>
      ApplyEntry(n.(lastApplied := x), e, env).value == ApplyEntry(n, e, env).value.(lastApplied := x)
  {
  }

  /** The state after apply_committed_entries, and whether it stopped with an
      exception. */
  datatype Applied = Applied(node: Node, raised: bool)

  /** apply_committed_entries: while lastApplied is below commitIndex, advance
      it and apply the entry at that index. An entry past the end of the log
      (an IndexError in the source) or one whose command raises stops the loop
      with lastApplied already advanced. */
  function ApplyCommitted(n: Node, env: Env): (r: Applied)
    ensures r.node.id == n.id && r.node.currentTerm == n.currentTerm && r.node.votedFor == n.votedFor
    ensures r.node.log == n.log && r.node.commitIndex == n.commitIndex && r.node.role == n.role
    ensures !r.raised ==> r.node.lastApplied == if n.lastApplied < n.commitIndex then n.commitIndex else n.lastApplied
    ensures r.raised ==> n.lastApplied < r.node.lastApplied <= n.commitIndex
    ensures n.lastApplied >= n.commitIndex ==> r == Applied(n, false)
    decreases n.commitIndex - n.lastApplied
  {
    if n.lastApplied >= n.commitIndex then Applied(n, false)
    else
      var n1 := n.(lastApplied := n.lastApplied + 1);
      if n.lastApplied >= |n.log| then Applied(n1, true)
      else
        match ApplyEntry(n1, n.log[n.lastApplied], env)
        case None => Applied(n1, true)
        case Some(n2) => ApplyCommitted(n2, env)
  }

  /** The reference meaning of applying a run of entries: each in turn, stopping
      with None at the first that raises. */
  function ApplyAll(n: Node, entries: seq<Entry>, env: Env): Option<Node>
    decreases |entries|
  {
    if entries == [] then Some(n)
    else
      match ApplyEntry(n, entries[0], env)
      case None => None
      case Some(m) => ApplyAll(m, entries[1..], env)
  }

  /** Applying a run of entries leaves the Raft fields alone. */
  lemma {:induction false} ApplyAllKeepsRaftCore(n: Node, entries: seq<Entry>, env: Env)
    requires ApplyAll(n, entries, env).Some?
    ensures SameRaftCore(n, ApplyAll(n, entries, env).value)
    decreases |entries|
  {
    if entries != [] {
      ApplyAllKeepsRaftCore(ApplyEntry(n, entries[0], env).value, entries[1..], env);
    }
  }

  /** When apply_committed_entries completes, its effect is exactly that of
      applying the entries with indices lastApplied+1 .. commitIndex once
      each, in index order. */
  lemma {:induction false} ApplyCommittedInOrder(n: Node, env: Env)
    requires n.lastApplied <= n.commitIndex <= |n.log|
    requires !ApplyCommitted(n, env).raised
    ensures ApplyAll(n, n.log[n.lastApplied..n.commitIndex], env)
      == Some(ApplyCommitted(n, env).node.(lastApplied := n.lastApplied))
    decreases n.commitIndex - n.lastApplied
  {
    var es := n.log[n.lastApplied..n.commitIndex];
    if n.lastApplied < n.commitIndex {
      var n1 := n.(lastApplied := n.lastApplied + 1);
      var e := n.log[n.lastApplied];
      assert es[0] == e;
      ApplyEntryIgnoresLastApplied(n1, e, env, n.lastApplied);
      assert n1.(lastApplied := n.lastApplied) == n;
      var n2 := ApplyEntry(n1, e, env).value;
      assert ApplyEntry(n, e, env) == Some(n2.(lastApplied := n.lastApplied));
      ApplyCommittedInOrder(n2, env);
      assert es[1..] == n2.log[n2.lastApplied..n2.commitIndex];
      ApplyAllIgnoresLastApplied(n2, es[1..], env, n.lastApplied);
    }
  }

  /** Applying a run of entries neither reads nor writes lastApplied. */
  lemma {:induction false} ApplyAllIgnoresLastApplied(n: Node, entries: seq<Entry>, env: Env, x: nat)
    ensures ApplyAll(n.(lastApplied := x), entries, env).Some? <==> ApplyAll(n, entries, env).Some?
    ensures ApplyAll(n, entries, env).Some? ==>
      ApplyAll(n.(lastApplied := x), entries, env).value == ApplyAll(n, entries, env).value.(lastApplied := x)
    decreases |entries|
  {
    if entries != [] {
      ApplyEntryIgnoresLastApplied(n, entries[0], env, x);
      if ApplyEntry(n, entries[0], env).Some? {
        ApplyAllIgnoresLastApplied(ApplyEntry(n, entries[0], env).value, entries[1..], env, x);
      }
    }
  }
}

=== FILE: safety.dfy ===
/** Properties of a replica across every handler: the term never goes back,
    and within a term the recorded vote never changes once cast, so a replica
    grants its vote to at most one candidate per term (the Election Safety
    argument of section 5.2 of the Raft paper, on the voter's side). A run is
    one process lifetime: a restart clears the vote, and is not an event. */
module Safety {
  import opened Wrappers
  import opened ReplicaState
  import opened RaftRpc
  import opened Leadership

  /** Everything that can happen to a replica, with RPC replies as inputs. */
  datatype Event =
    | VoteAsked(voteRequest: VoteRequest)
    | EntriesReceived(appendRequest: AppendRequest)
    | EntriesAcknowledged(reply: Option<AppendReply>, followerId: string, sent: AppendRequest)
    | ElectionTimeout(voteReplies: seq<Option<VoteReply>>)
    | HeartbeatCheck(heartbeatReplies: seq<Option<nat>>)
    | ClientCommand(op: string, params: seq<string>)

  /** The replica after one event. */
  function Step(n: Node, ev: Event, env: Env): Node {
    match ev
    case VoteAsked(req) => RequestVote(n, req).node
    case EntriesReceived(req) => AppendEntries(n, req, env).node
    case EntriesAcknowledged(reply, f, sent) => HandleAppendEntriesResponse(n, reply, f, sent, env).node
    case ElectionTimeout(replies) => BecomeCandidate(n, replies)
    case HeartbeatCheck(replies) => CheckLeaderStatus(n, replies)
    case ClientCommand(op, params) => ReplicateCommand(n, op, params, env).node
  }

  /** The replica after a run of events. */
  function Run(n: Node, events: seq<Event>, env: Env): Node
    decreases |events|
  {
    if events == [] then n else Run(Step(n, events[0], env), events[1..], env)
  }

  /** From `n` to `m` the term did not go back, and if it stayed the same, a
      vote already cast was kept. */
  predicate VoteKept(n: Node, m: Node) {
    || m.currentTerm > n.currentTerm
    || (m.currentTerm == n.currentTerm && (n.votedFor.Some? ==> m.votedFor == n.votedFor))
  }

  lemma VoteKeptTransitive(a: Node, b: Node, c: Node)
    requires VoteKept(a, b) && VoteKept(b, c)
    ensures VoteKept(a, c)
  {
  }

  /** Every handler keeps the vote. */
  lemma StepKeepsVote(n: Node, ev: Event, env: Env)
    ensures VoteKept(n, Step(n, ev, env))
  {
    match ev
    case VoteAsked(req) =>
    case EntriesReceived(req) =>
    case EntriesAcknowledged(reply, f, sent) =>
    case ElectionTimeout(replies) =>
    case HeartbeatCheck(replies) =>
    case ClientCommand(op, params) =>
  }

  /** Any run of events keeps the vote. */
  lemma {:induction false} RunKeepsVote(n: Node, events: seq<Event>, env: Env)
    ensures VoteKept(n, Run(n, events, env))
    decreases |events|
  {
    if events != [] {
      var m := Step(n, events[0], env);
      StepKeepsVote(n, events[0], env);
      RunKeepsVote(m, events[1..], env);
      VoteKeptTransitive(n, m, Run(n, events, env));
    }
  }

  /** A replica that granted its vote in some term and, after any run of
      events, grants a vote again for the same term, grants it to the same
      candidate. */
  lemma OneVotePerTerm(n: Node, first: VoteRequest, events: seq<Event>, second: VoteRequest, env: Env)
    requires RequestVote(n, first).reply.voteGranted
    requires second.term == first.term
    requires RequestVote(Run(RequestVote(n, first).node, events, env), second).reply.voteGranted
    ensures second.candidateId == first.candidateId
  {
    var m := RequestVote(n, first).node;
    var later := Run(m, events, env);
    RunKeepsVote(m, events, env);
    assert m.currentTerm == first.term && m.votedFor == Some(first.candidateId);
  }

  /** The same replica never grants two different candidates in one term
      through the same event history. */
  lemma OneVotePerTermAcrossRuns(n: Node, events: seq<Event>, env: Env, i: nat, j: nat)
    requires i < j < |events|
    requires events[i].VoteAsked? && events[j].VoteAsked?
    requires events[i].voteRequest.term == events[j].voteRequest.term
    requires RequestVote(Run(n, events[..i], env), events[i].voteRequest).reply.voteGranted
    requires RequestVote(Run(n, events[..j], env), events[j].voteRequest).reply.voteGranted
    ensures events[i].voteRequest.candidateId == events[j].voteRequest.candidateId
  {
    var before := Run(n, events[..i], env);
    RunPrefixStep(n, events, i, env);
    RunPrefixSplit(n, events, i + 1, j, env);
    OneVotePerTerm(before, events[i].voteRequest, events[i + 1..j], events[j].voteRequest, env);
  }

  /** Running one more event of a history is one more step. */
  lemma RunPrefixStep(n: Node, events: seq<Event>, i: nat, env: Env)
    requires i < |events|
    ensures Run(n, events[..i + 1], env) == Step(Run(n, events[..i], env), events[i], env)
  {
    RunSplit(n, events[..i], events[i..i + 1], env);
    PrefixJoin(events, i, i + 1);
    assert events[i..i + 1] == [events[i]];
    RunOne(Run(n, events[..i], env), events[i], env);
  }

  /** Running a longer prefix of a history is running the shorter prefix and
      then the slice between them. */
  lemma RunPrefixSplit(n: Node, events: seq<Event>, i: nat, j: nat, env: Env)
    requires i <= j <= |events|
    ensures Run(n, events[..j], env) == Run(Run(n, events[..i], env), events[i..j], env)
  {
    RunSplit(n, events[..i], events[i..j], env);
    PrefixJoin(events, i, j);
  }

  /** A prefix followed by the next slice is the longer prefix. */
  lemma PrefixJoin(events: seq<Event>, i: nat, j: nat)
    requires i <= j <= |events|
    ensures events[..i] + events[i..j] == events[..j]
  {
  }

  /** A run of one event is one step. */
  lemma RunOne(n: Node, ev: Event, env: Env)
    ensures Run(n, [ev], env) == Step(n, ev, env)
  {
  }

  /** Running two event sequences one after the other is running their
      concatenation. */
  lemma {:induction false} RunSplit(n: Node, a: seq<Event>, b: seq<Event>, env: Env)
    ensures Run(n, a + b, env) == Run(Run(n, a, env), b, env)
    decreases |a|
  {
    if a != [] {
      assert (a + b)[0] == a[0];
      assert (a + b)[1..] == a[1..] + b;
      RunSplit(Step(n, a[0], env), a[1..], b, env);
    } else {
      assert a + b == b;
    }
  }
}

=== FILE: wrappers.dfy ===
/** The optional-value wrapper shared by every module of the model; it stands
    for Python's `None`-or-value results. */
module Wrappers {

  datatype Option<+T> = None | Some(value: T) {

    /** Returns the wrapped value, or `default` when there is none. */
    function GetOr(default: T): T {
      match this
      case Some(v) => v
      case None => default
    }
  }
}
